=== FILE: README.md ===
# ColorConverter, modelled in Dafny

ColorConverter is a Sublime Text plugin (one file, `convert.py`) that finds a
CSS colour at the cursor and rewrites or copies it in another notation. The
colour arithmetic, parsing of colour strings and formatting are done by the
`coloraide` library; what the plugin computes itself is modelled here:

- the search window of ±50 characters around the cursor (`get_search_region`);
- the choice of the colour function under the cursor among the matches of
  three patterns, in the order HSL, HWB, generic (`find_color_func_at_point`);
- the hue, channels and opacity read from an HSL or HWB match (`parse_hues`),
  over an exact model of `decimal.Decimal` literals;
- the word fallback of `get_cursor_color`: the `#` retry one point further,
  the hex prefix test, the widening over a preceding `#`, lower-casing;
- the mapping from target format and settings to the call of `to_string`
  (`convert`), with the `KeyError` of its `color` branch;
- the rule that drops the leading `#` of text sent to the clipboard;
- the in-place, last-to-first replacement loop of `ColorConvertAllCommand`.

The regex engine and the editor are inputs. A pattern's matches are a
sequence of `FuncMatch` values (span relative to the search window, named
groups), `view.word` is a function `wordAt` from points to regions, and the
buffer searches of the batch command are functions from text to region lists.
The buffer is a string; the batch command's view is a class whose `text` field
`Replace` updates in place.

Modules, one per file: `Outcomes` (Option, Result, the two Python exceptions
that matter), `Regions`, `Text`, `Decimals`, `Hues`, `Locator`,
`CursorColor`, `Options`, `Clipboard`, `Batch`.

## Model

| member | source | states |
|---|---|---|
| Regions.SearchRegion | convert.py:21-27 | the window is `[max(pnt-50,0), min(pnt+50,size)]`; for a cursor inside the buffer it lies inside `[0,size]`, contains the cursor and is at most 100 wide |
| Text.Lower | convert.py:96 | the lower-cased word has the length of the word (its characters are given by LowerAt) |
| Text.LowerAt | convert.py:95-96 | `lower()` maps each character on its own: an upper-case ASCII letter to its lower-case form, everything else unchanged; no upper-case letter remains |
| Text.LowerConcat | convert.py:95-96 | lower-casing distributes over concatenation |
| Text.StripLeft | convert.py:116 | the result is a suffix without leading white space, and everything removed is white space |
| Text.StripRight | convert.py:116 | the result is a prefix without trailing white space, and everything removed is white space |
| Text.Strip | convert.py:116 | the stripped word is no longer than the word and neither starts nor ends with white space |
| Text.StripPadded | convert.py:116 | `strip` removes exactly the padding: a text with non-blank ends padded on both sides with white space strips back to itself |
| Text.HexColorMatch | convert.py:121 | the unanchored six-or-three-digit hex match is only a prefix test: it passes exactly when the first three characters are hex digits |
| Text.HexColorMatchIgnoresCase | convert.py:121 | the case-insensitive hex test gives the same verdict on a word and on its lower-cased form |
| Decimals.ParseDecimal | convert.py:36 | `Decimal(s)` of a literal without a minus sign is never negative |
| Decimals.ParseUnsigned | convert.py:36 | an accepted unsigned literal is never negative |
| Decimals.NumeralRoundTrip | convert.py:36 | the decimal numeral of every natural number reads back as that number |
| Decimals.ParsePointed | convert.py:36 | `w.f` denotes the whole part plus the fraction digits over ten to their count |
| Decimals.ParseSign | convert.py:36 | a leading `+` keeps the value of the rest and a leading `-` negates it; a sign before a rejected literal is rejected |
| Decimals.SignedNumeralRoundTrip | convert.py:36 | a signed whole numeral such as `-120` reads as the signed number: `-n` after `-`, `n` after `+` |
| Decimals.ParseRejectsSecondPoint | convert.py:36 | a literal with two points is invalid |
| Decimals.ParseNeedsDigit | convert.py:36 | a literal with no digit (empty, `.`, a lone sign) is invalid |
| Decimals.DigitsValueConcat | convert.py:36 | the value of concatenated digit strings is the left value shifted by the right length plus the right value |
| Hues.GroupDecimal | convert.py:36 | reading a group fails exactly when `Decimal` rejects its text, and otherwise yields its value |
| Hues.Opacity | convert.py:47-51 | opacity is 1 with neither group, the `opdec` value when it is present, and otherwise the `opperc` value over 100; it fails exactly when the group used holds an invalid literal |
| Hues.Fraction | convert.py:54-61 | a channel is 0 when its group is missing or empty, otherwise its value over 100, failing exactly on an invalid literal |
| Hues.AngleStep | convert.py:35-45 | one `if match.group(unit)` step: an absent group or an earlier failure leaves the hue as it was; a present group replaces it by its value in degrees, failing exactly on an invalid literal |
| Hues.Hue | convert.py:32-45 | the hue fails exactly when some angle group present holds an invalid literal; a present `turn` group, tested last, decides the hue |
| Hues.ParseHues | convert.py:30-65 | hue and opacity are computed first and their errors propagate; `hsl` and `hwb` give `(format, [hue, c1/100, c2/100], opacity)` with their own channel groups; any other format gives `None`; it fails exactly when one of the parts fails |
| Hues.HueWithoutAngleIsZero | convert.py:32-34 | with `none` or no angle group the hue is 0 |
| Hues.HueOfUnit | convert.py:35-45 | a lone angle group gives its value for a bare number or `deg`, 9/10 of it for `grad`, 360 times it for `turn`, the degree value for `rad` |
| Hues.HueInvalidLiteral | convert.py:35-45 | an invalid angle literal makes `parse_hues` raise for every format |
| Hues.HueKeepsSign | convert.py:35-45 | the unit conversion keeps the sign of the angle |
| Hues.UnitsAgree | convert.py:35-45 | the same angle written in deg, grad and turn gives the same hue |
| Hues.FractionValue | convert.py:55-61 | one channel that `Fraction` computes: the group's value over 100, 0 for a missing group, not negative for a literal without a minus sign |
| Hues.ChannelsAreFractions | convert.py:53-63 | a built colour is hsl or hwb; each channel is its group's value over 100, or 0 for a missing group, and is not negative for a literal without a minus sign |
| Locator.FirstCovering | convert.py:74-78 | the index found is that of the first match whose span contains the cursor, both ends inclusive; none exactly when no match contains it |
| Locator.FindCovering | convert.py:74-78 | the loop over one pattern's matches returns the first covering match |
| Locator.ExtractWord | convert.py:95-96 | the extracted word is as long as its region |
| Locator.ExtractWordLowers | convert.py:95-96 | each character of the extracted word is the region's character lower-cased |
| Locator.Pick | convert.py:74-92 | the match taken covers the cursor and lies inside the window |
| Locator.FindMatch | convert.py:74-92 | the three loops, HSL then HWB then generic, stop at the match the priority order picks |
| Locator.HueResult | convert.py:77-84 | an HSL or HWB match gives the shifted region and, as its colour, exactly the space, `[hue, c1, c2]` and opacity that `parse_hues` computes for the match's groups; it fails exactly when `parse_hues` raises |
| Locator.Build | convert.py:77-90 | a picked match yields its shifted region; a generic match yields exactly `extract_word` of that region (its text lower-cased), an HSL or HWB match exactly the `parse_hues` result for its format |
| Locator.FindColorFuncAtPoint | convert.py:68-92 | the method returns what `ColorFuncAt` specifies: the first match covering the cursor in the order HSL, HWB, generic, built at its span shifted by the window start, or `None` |
| Locator.PickedBuilds | convert.py:72-77 | the picked match, shifted by the window start, lies in the buffer and is what is returned |
| Locator.ColorFuncAt | convert.py:68-92 | the specification of `find_color_func_at_point`: a returned region contains the cursor, lies inside the search window and inside the buffer |
| Locator.PatternPriority | convert.py:74-92 | an HSL match covering the cursor decides the result whatever HWB and the generic pattern found; an HWB match does so over the generic pattern |
| Locator.NothingFound | convert.py:74-92 | the result is `None` exactly when no match of any pattern covers the cursor |
| Locator.NothingPicked | convert.py:92 | the result is `None` exactly when no match is picked |
| Locator.PickNone | convert.py:74-92 | no match is picked exactly when none of the three patterns covers the cursor |
| Locator.FirstMatchWins | convert.py:86-90 | a generic result comes from the first generic match covering the cursor, and no HSL or HWB match covers it |
| Locator.FirstHslMatchWins | convert.py:74-78 | when an HSL match covers the cursor, the result is `parse_hues` of the first such match in enumeration order, at its shifted span |
| Locator.FirstHwbMatchWins | convert.py:80-84 | when no HSL match but an HWB match covers the cursor, the result is `parse_hues` of the first such HWB match, at its shifted span |
| Locator.FirstFuncMatchBuilds | convert.py:86-90 | when no HSL or HWB match covers the cursor, the result is the first covering generic match at its shifted span, with `extract_word` of that span as the colour text |
| CursorColor.ChosenWord | convert.py:110-118 | the word is the one at `pnt`, or the one at `pnt+1` exactly when the first strips to `#` |
| CursorColor.Widen | convert.py:120-123 | the region keeps its end and moves its start at most one left, and does so exactly when `pnt > 0`, the word passes the hex test and a `#` precedes it |
| CursorColor.WidenedRegionText | convert.py:120-125 | a widened region's text is `#` followed by a word that begins with three hex digits |
| CursorColor.HashThenWord | convert.py:122-125 | the text of a region starting on a preceding `#` is `#` followed by the word |
| CursorColor.HashAtBufferStartDropped | convert.py:120-123 | the `pnt > 0` guard tests the cursor, not the word: at offset 0 of "#abc" the word `abc` is not widened over its `#`, from offset 1 it is |
| CursorColor.WordAtCursor | convert.py:110-123 | the step-by-step fallback ends with the widened chosen word |
| CursorColor.GetCursorColor | convert.py:99-125 | a covering colour function wins and its error propagates; otherwise the widened word and its lower-cased text; the region lies in the buffer |
| Options.Get | convert.py:133-137 | a setting that is not stored reads as `None` |
| Options.FormatOf | convert.py:140-181 | a recognised argument is the name of the format it gives |
| Options.FormatNameRoundTrip | convert.py:140-181 | every format is recognised by its own name |
| Options.CommonArgs | convert.py:132-138 | `comma` and `percent` come from `commas` and `%`; `precision` is `[0,0,0,3]` and present exactly when `round` is truthy |
| Options.Delete | convert.py:160-161 | `del` raises `KeyError` naming the key exactly when the key is missing, and otherwise removes only that key |
| Options.ColorCallAsWritten | convert.py:159-164 | the `color` branch as written raises `KeyError('precision')` exactly when neither `%` nor `round` is set, and otherwise makes the corrected call |
| Options.Convert | convert.py:128-181 | the colour is converted to sRGB for name, hex, HEX6 and rgb, in place to hsl, hwb or lab, and not for color; `precision` is passed exactly when `round` is set for a channel format, and for color only with `%` too; only hex and HEX6 pass `hex`, as `hex=True`, together with only `upper` and `compress`; name passes `names=True` and nothing else; color passes `color=True`; the channel formats pass nothing beyond `comma`, `percent`, `precision` and, for color only, `color` |
| Options.ConvertNamed | convert.py:128-181 | a call is made exactly for the eight known format names; any other name yields `None` |
| Options.ConvertAsWritten | convert.py:159-164 | the written mapping raises `KeyError('precision')` exactly for color with neither `%` nor `round`, and otherwise agrees with the corrected one |
| Options.DefaultColorRaises | convert.py:159-164 | with no settings stored, converting to color raises |
| Options.Hex6IgnoresSettings | convert.py:151-157 | HEX6 is upper case and uncompressed whatever the settings |
| Options.HexFollowsSettings | convert.py:144-149 | hex is upper case exactly when `hex_case` is the string "upper", and compresses as `hex_short` says |
| Options.PercentSource | convert.py:131-181 | every channel format passes `commas`; rgb takes `percent` from `%_rgb`, the others from `%` |
| Clipboard.StripsHash | convert.py:191 | with `and` binding tighter than `or`: only `hex` and `HEX6` strip; `hex` always does; `HEX6` does exactly when `hex_copy_#` is not the boolean `True` |
| Clipboard.ClipboardText | convert.py:191-192 | for the formats that strip, a leading `#` is removed and nothing else; other text and other formats are unchanged |
| Clipboard.HexAlwaysStrips | convert.py:191-192 | `hex` loses its `#` whatever `hex_copy_#` says |
| Clipboard.Hex6KeepsHashOnlyForTrue | convert.py:191-192 | `HEX6` keeps its `#` only when `hex_copy_#` is the boolean `True`, not for another truthy value |
| Clipboard.OtherFormatsUntouched | convert.py:191-192 | formats other than `hex` and `HEX6` are copied unchanged |
| Clipboard.OnlyOneHashRemoved | convert.py:191-192 | of two leading `#`, only the first is removed |
| Batch.View.Replace | convert.py:219 | the region's text is replaced and the rest of the buffer kept |
| Batch.ConvertRegions | convert.py:231-232 | replacing from the last region to the first leaves the buffer as if all regions were replaced at once |
| Batch.SpliceStep | convert.py:231-232 | before each replacement the region still holds its original text, and replacing it extends the converted suffix while the text before it stays as it was |
| Batch.PartialEnds | convert.py:231-232 | before the loop the buffer is the original text; after it, the fully converted text |
| Batch.TailStartsAtEdge | convert.py:231-232 | the regions still waiting start after the end of the last region already processed |
| Batch.ConvertAll | convert.py:223-243 | hexes, then colour functions, then names are converted, each search run on the buffer the previous one left |
| Batch.RelocationTakesEarlierFunction | convert.py:214-219 | re-locating at the start of a found function that directly follows another yields the earlier function's region, not the found one |
| Batch.PrefixUnchanged | convert.py:230-232 | the text before the first region is never changed |
| Batch.FailedConversionsKeepText | convert.py:214-221 | when every conversion raises, the buffer is left unchanged |
| Batch.ForwardOrderCorrupts | convert.py:231 | a first-to-last order would corrupt the text ("ab" with a doubling conversion gives "aaab" instead of "aabb"), which the reverse order avoids |

## Left out

- `coloraide`: building a `Color`, space conversion, `to_string` and the colour-name table are a library the plugin calls. The model stops at the arguments: `(space, [hue, c1, c2], alpha)` for `parse_hues`, the lower-cased text for `Color(text)`, and the target space and keyword arguments for `to_string`. A `Color(text)` that rejects its text is not modelled.
- The regex engine and the patterns `HEX_COLOR_RE`, `RGB_COLOR_RE`, `HSL_RE` and `HWB_RE`. Matches, named groups and `find_all` results are inputs, with spans inside the window and regions in increasing order. The hex test at `get_cursor_color` is stated directly as a prefix test.
- Hues.AngleUnit.ToDegrees: `rad` multiplies by 180/π written to double precision; the binary floating-point rounding of `math.degrees` is not modelled.
- Hues.Fraction: division is exact; Python's `Decimal` rounds every result to 28 significant digits. The same gap applies to opacity over 100 (Hues.Opacity) and to the angle products `Decimal(grad) * 9 / 10` and `Decimal(turn) * 360` (Hues.AngleUnit.ToDegrees, Hues.HueOfUnit).
- Decimals.ParseDecimal: only literals over the patterns' alphabet (`[+-]?[0-9.]+`) are modelled; exponents, `Infinity`, `NaN` and surrounding white space are rejected, which the patterns never capture.
- Text.Lower: lower-cases ASCII letters only; `str.lower` also folds other Unicode letters.
- Text.Strip: strips ASCII white space only; `str.strip` also removes other Unicode space characters.
- `none` gives a hue of 0, which is what the code stores, rather than a missing hue.
- Batch.ConvertRegions: the conversion of a region is a parameter that stands for the whole of `convert_region`, and it is applied to the found region itself. It maps the region's text to a replacement, or to nothing when the conversion raises. The source re-locates instead: it calls `get_cursor_color` at the region's start and replaces the region that call returns, which can be another colour or start before the found region. The result "as if all regions were replaced at once" holds only when every re-located region is the found one. Four cases where it is not: (1) for a colour function directly followed by another, such as "rgb(1,2,3)rgb(4,5,6)", the start of the second is also the end of the first, and the earlier function is located instead (Batch.RelocationTakesEarlierFunction); the first function is converted and the second one never is; (2) a hex colour at buffer offset 0 is re-located with `pnt == 0`, so its `#` is left out and the hex digits alone are handed to `Color` (CursorColor.HashAtBufferStartDropped); (3) the names pattern has no word boundaries, so "red" inside "hundred" is re-located as the whole word; (4) regions are converted from the last to the first, so in "x#abc#def" the later hex may already be replaced by, say, "rgb(...)" when the earlier one is re-located: the word there is then "abcrgb", which is widened to "#abcrgb" and rejected, so the earlier hex is never converted.
- Batch.ConvertAll: the restriction of the searches to the first selection (`within`, behind `sublime.version() >= 4181`) and the case flags of the searches are part of the search functions given as parameters.
- `ColorConvertSelectionCommand`, `ColorConvertContextCommand`, `ColorConvertCopyContextCommand` and `ColorConvertCopyCommand` only chain `get_cursor_color`, `convert`, `view.replace` and the clipboard; their event handling (`_ContextCommand.find_point`, which returns a boolean rather than a point and treats point 0 as no point) and the `rgb` prefix test for colours without a name depend on the editor and on `to_string`.
- Status messages, the clipboard itself and the loading of settings are editor I/O; settings are a map given as a parameter.

## Findings

| source | as written | input that shows it | evidently intended | confidence | as-written member | corrected member |
|---|---|---|---|---|---|---|
| convert.py:159-161 | `del common_args['precision']` when `%` is not set | format `color` with neither `%` nor `round` set (for example no settings stored): `precision` was never added, so `del` raises `KeyError` and the command reports that the text is not a colour | drop `precision` if it is there, and format the colour | high (not executed) | Options.ConvertAsWritten | Options.Convert |

=== FILE: batch.dfy ===
/** `ColorConvertAllCommand.run`: every hex colour, colour function and colour
    name found in the buffer is converted in place. The regions of one search
    are replaced from the last to the first, so that a replacement of a
    different length never moves a region still waiting to be replaced. */
module Batch {
  import opened Outcomes
  import opened Regions
  import Locator

  /** The editor buffer of the command's view. */
  class View {
    var text: string

    constructor(initial: string)
      ensures text == initial
    {
      text := initial;
    }

    /** `view.replace(edit, r, s)`. */
    method Replace(r: Region, s: string)
      requires r.Within(|text|)
      modifies this
      ensures text == old(text)[..r.a] + s + old(text)[r.b..]
    {
      text := text[..r.a] + s + text[r.b..];
    }
  }

  /** The regions `find_all` returns: inside the text, in increasing order and
      not overlapping. */
  predicate Ascending(rs: seq<Region>, size: nat) {
    (forall i :: 0 <= i < |rs| ==> rs[i].Within(size))
    && (forall i, j :: 0 <= i < j < |rs| ==> rs[i].b <= rs[j].a)
  }

  /** Every region starts at or after `from`. */
  predicate StartFrom(rs: seq<Region>, from: nat) {
    forall i :: 0 <= i < |rs| ==> from <= rs[i].a
  }

  /** What `convert_region` leaves at a region: the converted text, or the
      original text when the conversion raised (`conv` gives `None`). */
  function Replacement(t: string, r: Region, conv: string -> Option<string>): string
    requires r.Within(|t|)
  {
    match conv(t[r.a..r.b])
    case Some(s) => s
    case None => t[r.a..r.b]
  }

  /** The text from `from` on with every region replaced at once: the gaps
      between regions are kept and each region gives way to its replacement. */
  function Spliced(t: string, rs: seq<Region>, from: nat, conv: string -> Option<string>): (r: string)
    requires from <= |t| && Ascending(rs, |t|) && StartFrom(rs, from)
    decreases |rs|
  {
    if rs == [] then t[from..]
    else t[from..rs[0].a] + Replacement(t, rs[0], conv) + Spliced(t, rs[1..], rs[0].b, conv)
  }

  /** The loop `for region in reversed(regions)`: it ends with every region
      replaced as if all were replaced at once. */
  method ConvertRegions(view: View, rs: seq<Region>, conv: string -> Option<string>)
    requires Ascending(rs, |view.text|)
    modifies view
    ensures view.text == Spliced(old(view.text), rs, 0, conv)
  {
    ghost var t := view.text;
    var k := |rs|;
    PartialEnds(t, rs, conv);
    while k > 0
      invariant 0 <= k <= |rs|
      invariant view.text == Partial(t, rs, k, conv)
      decreases k
    {
      var r := rs[k - 1];
      SpliceStep(t, rs, k, conv);
      var s := Replacement(view.text, r, conv);
      view.Replace(r, s);
      k := k - 1;
    }
  }

  /** Where the text still waiting to be replaced ends: the end of the region
      before the `k`-th, or the buffer start. */
  function Edge(rs: seq<Region>, k: nat): nat
    requires k <= |rs|
  {
    if k == 0 then 0 else if rs[k - 1].b < 0 then 0 else rs[k - 1].b as nat
  }

  /** The regions from the `k`-th on start after the edge. */
  lemma {:induction false} TailStartsAtEdge(rs: seq<Region>, size: nat, k: nat)
    requires Ascending(rs, size) && k <= |rs|
    ensures Edge(rs, k) <= size && StartFrom(rs[k..], Edge(rs, k))
  {
    var tail := rs[k..];
    if k > 0 {
      var r := rs[k - 1];
      assert Edge(rs, k) == r.b;
      forall i | 0 <= i < |tail|
        ensures r.b <= tail[i].a
      {
        assert tail[i] == rs[k + i];
      }
    }
  }

  /** The buffer after the loop has replaced the regions from the `k`-th on:
      the text up to the edge is untouched and the rest is converted. */
  function Partial(t: string, rs: seq<Region>, k: nat, conv: string -> Option<string>): string
    requires Ascending(rs, |t|) && k <= |rs|
  {
    TailStartsAtEdge(rs, |t|, k);
    t[..Edge(rs, k)] + Spliced(t, rs[k..], Edge(rs, k), conv)
  }

  /** Before the loop nothing is replaced; after it, everything is. */
  lemma {:induction false} PartialEnds(t: string, rs: seq<Region>, conv: string -> Option<string>)
    requires Ascending(rs, |t|)
    ensures Partial(t, rs, |rs|, conv) == t
    ensures Partial(t, rs, 0, conv) == Spliced(t, rs, 0, conv)
  {
    var e := Edge(rs, |rs|);
    assert rs[|rs|..] == [];
    assert t[..e] + t[e..] == t;
    assert rs[0..] == rs;
    assert t[..0] == [];
  }

  /** One pass of the reverse loop: the region `k - 1` still holds its original
      text, and replacing it extends the converted suffix by that region and
      the gap before it. */
  lemma {:induction false} SpliceStep(t: string, rs: seq<Region>, k: nat, conv: string -> Option<string>)
    requires Ascending(rs, |t|) && 0 < k <= |rs|
    ensures var r, u := rs[k - 1], Partial(t, rs, k, conv);
            r.Within(|u|) && Replacement(u, r, conv) == Replacement(t, r, conv)
            && u[..r.a] + Replacement(t, r, conv) + u[r.b..] == Partial(t, rs, k - 1, conv)
  {
    var r := rs[k - 1];
    TailStartsAtEdge(rs, |t|, k);
    TailStartsAtEdge(rs, |t|, k - 1);
    var e, e' := Edge(rs, k), Edge(rs, k - 1);
    assert e == r.b;
    if k > 1 {
      assert rs[k - 2].b <= r.a;
    }
    var rest := Spliced(t, rs[k..], e, conv);
    KeptPrefix(t, rest, e', r.a, r.b);
    assert rs[k - 1..][0] == r && rs[k - 1..][1..] == rs[k..];
    assert Spliced(t, rs[k - 1..], e', conv) == t[e'..r.a] + Replacement(t, r, conv) + rest;
  }

  /** The slices of `t[..b] + rest` around a region `[a, b)` of `t`. */
  lemma {:induction false} KeptPrefix(t: string, rest: string, e: nat, a: nat, b: nat)
    requires e <= a <= b <= |t|
    ensures var u := t[..b] + rest;
            u[a..b] == t[a..b] && u[b..] == rest && u[..a] == t[..e] + t[e..a]
  {
  }

  /** The three searches of the command, each a function of the buffer at the
      time it runs, with the ordering `find_all` guarantees. */
  ghost predicate Finder(find: string -> seq<Region>) {
    forall t :: Ascending(find(t), |t|)
  }

  /** The whole command: hexes first, then colour functions, then names, each
      search run on the buffer the previous one left. */
  function ConvertedAll(t: string, findHex: string -> seq<Region>, findFunc: string -> seq<Region>,
                        findName: string -> seq<Region>, conv: string -> Option<string>): string
    requires Ascending(findHex(t), |t|)
    requires Ascending(findFunc(Spliced(t, findHex(t), 0, conv)), |Spliced(t, findHex(t), 0, conv)|)
    requires var t1 := Spliced(t, findHex(t), 0, conv);
             var t2 := Spliced(t1, findFunc(t1), 0, conv);
             Ascending(findName(t2), |t2|)
  {
    var t1 := Spliced(t, findHex(t), 0, conv);
    var t2 := Spliced(t1, findFunc(t1), 0, conv);
    Spliced(t2, findName(t2), 0, conv)
  }

  /** `ColorConvertAllCommand.run(edit, format)`. */
  method ConvertAll(view: View, findHex: string -> seq<Region>, findFunc: string -> seq<Region>,
                    findName: string -> seq<Region>, conv: string -> Option<string>)
    requires Finder(findHex) && Finder(findFunc) && Finder(findName)
    modifies view
    ensures view.text == ConvertedAll(old(view.text), findHex, findFunc, findName, conv)
  {
    var hexes := findHex(view.text);
    ConvertRegions(view, hexes, conv);
    var rgbs := findFunc(view.text);
    ConvertRegions(view, rgbs, conv);
    var names := findName(view.text);
    ConvertRegions(view, names, conv);
  }

  /** The text before the first region is never touched. */
  lemma {:induction false} PrefixUnchanged(t: string, rs: seq<Region>, conv: string -> Option<string>)
    requires Ascending(rs, |t|) && rs != []
    ensures var out := Spliced(t, rs, 0, conv);
            rs[0].a <= |out| && out[..rs[0].a] == t[..rs[0].a]
  {
    var out := Spliced(t, rs, 0, conv);
    assert out == t[0..rs[0].a] + (Replacement(t, rs[0], conv) + Spliced(t, rs[1..], rs[0].b, conv));
  }

  /** A conversion that fails everywhere leaves the buffer as it was. */
  lemma {:induction false} FailedConversionsKeepText(t: string, rs: seq<Region>, from: nat, conv: string -> Option<string>)
    requires from <= |t| && Ascending(rs, |t|) && StartFrom(rs, from)
    requires forall s :: conv(s).None?
    ensures Spliced(t, rs, from, conv) == t[from..]
    decreases |rs|
  {
    if rs != [] {
      var r := rs[0];
      assert Ascending(rs[1..], |t|) && StartFrom(rs[1..], r.b) by {
        forall i | 0 <= i < |rs[1..]|
          ensures r.b <= rs[1..][i].a
        {
          assert rs[1..][i] == rs[i + 1];
        }
      }
      FailedConversionsKeepText(t, rs[1..], r.b, conv);
      assert t[from..] == t[from..r.a] + t[r.a..r.b] + t[r.b..];
    }
  }

  /** Replacing the regions front to back with their original offsets, which
      the command does not do. */
  function ForwardOrder(t: string, rs: seq<Region>, conv: string -> Option<string>): string
    decreases |rs|
  {
    if rs == [] then t
    else
      var r := rs[0];
      var t' := if r.Within(|t|) then t[..r.a] + Replacement(t, r, conv) + t[r.b..] else t;
      ForwardOrder(t', rs[1..], conv)
  }

  /** Why the loop runs backwards: in "ab" with the regions of "a" and "b" and
      a conversion that doubles its text, the front-to-back order converts the
      first "a" twice and never reaches "b", while the reverse order gives
      "aabb". */
  lemma ForwardOrderCorrupts()
    ensures var conv := (s: string) => Some(s + s);
            var rs := [Region(0, 1), Region(1, 2)];
            Ascending(rs, 2)
            && Spliced("ab", rs, 0, conv) == "aabb"
            && ForwardOrder("ab", rs, conv) == "aaab"
  {
    var conv := (s: string) => Some(s + s);
    var rs := [Region(0, 1), Region(1, 2)];
    assert "ab"[0..1] == "a" && "ab"[1..2] == "b";
    assert Replacement("ab", rs[0], conv) == "aa";
    assert rs[1..] == [Region(1, 2)] && rs[1..][1..] == [];
    assert Spliced("ab", rs[1..], 1, conv) == "bb";
    assert "aab"[1..2] == "a";
    assert ForwardOrder("aab", rs[1..], conv) == "aaab";
  }

  /** What the command's re-location can do instead: `convert_region` looks
      for the colour again at the start of each found region. When a colour
      function ends exactly where the next one starts, as in
      "rgb(1,2,3)rgb(4,5,6)", the cursor at the later one's start is covered
      by the earlier one too (both ends count), and with no HSL or HWB match
      there the region located is that of an earlier match, not the one
      found. */
  lemma {:induction false} RelocationTakesEarlierFunction(text: string, pnt: nat, hsl: seq<Locator.FuncMatch>,
                                                          hwb: seq<Locator.FuncMatch>, funcs: seq<Locator.FuncMatch>, i: nat)
    requires Locator.WellFormedMatches(text, pnt, hsl, hwb, funcs)
    requires var rel := pnt - SearchRegion(|text|, pnt).a;
             Locator.NoneCovers(hsl, rel) && Locator.NoneCovers(hwb, rel)
             && 0 < i < |funcs| && funcs[i - 1].end == funcs[i].start == rel
    ensures var w := SearchRegion(|text|, pnt);
            var k := Locator.FirstCovering(funcs, pnt - w.a);
            var located := Locator.ColorFuncAt(text, pnt, hsl, hwb, funcs);
            k.Some? && k.value < i
            && located.Ok? && located.value.Some? && located.value.value.region == Locator.Shift(w, funcs[k.value])
  {
    var w := SearchRegion(|text|, pnt);
    var rel := pnt - w.a;
    assert Locator.Covers(funcs[i - 1], rel);
    var k := Locator.FirstCovering(funcs, rel);
    assert k.Some? && k.value <= i - 1;
    Locator.FirstFuncMatchBuilds(text, pnt, hsl, hwb, funcs);
  }
}

=== FILE: clipboard.dfy ===
/** `pnt_to_clipboard`: the converted text that goes to the clipboard, with
    the leading `#` of a hex colour dropped for the formats that drop it. */
module Clipboard {
  import opened Options

  /** `format == 'hex' or format == 'HEX6' and settings.get('hex_copy_#') is not True`:
      `and` binds tighter than `or`, so `hex` always loses its `#`, and `HEX6`
      keeps it only when the setting is the boolean `True` itself. */
  predicate StripsHash(format: string, settings: Settings): (r: bool)
    ensures r ==> format == "hex" || format == "HEX6"
    ensures format == "hex" ==> r
    ensures format == "HEX6" ==> (r <==> Get(settings, HexCopyHash) != Bool(true))
  {
    format == "hex" || (format == "HEX6" && Get(settings, HexCopyHash) != Bool(true))
  }

  /** `re.sub(r'^\#', '', result)` when the format strips the hash. */
  function ClipboardText(format: string, settings: Settings, result: string): (r: string)
    ensures !StripsHash(format, settings) ==> r == result
    ensures StripsHash(format, settings) && result != [] && result[0] == '#' ==> result == "#" + r
    ensures StripsHash(format, settings) && (result == [] || result[0] != '#') ==> r == result
  {
    if StripsHash(format, settings) && result != [] && result[0] == '#' then result[1..] else result
  }

  /** `hex` strips the hash whatever `hex_copy_#` says. */
  lemma {:induction false} HexAlwaysStrips(settings: Settings, digits: string)
    ensures ClipboardText("hex", settings, "#" + digits) == digits
  {
  }

  /** `HEX6` keeps the hash only for the boolean `True`; a truthy value of any
      other type, such as the number 1 or a string, still strips it. */
  lemma {:induction false} Hex6KeepsHashOnlyForTrue(settings: Settings, digits: string)
    ensures ClipboardText("HEX6", settings, "#" + digits) ==
              (if Get(settings, HexCopyHash) == Bool(true) then "#" + digits else digits)
    ensures ClipboardText("HEX6", settings[HexCopyHash := Int(1)], "#" + digits) == digits
  {
    assert Get(settings[HexCopyHash := Int(1)], HexCopyHash) == Int(1);
  }

  /** The formats other than `hex` and `HEX6` are copied as converted. */
  lemma {:induction false} OtherFormatsUntouched(format: string, settings: Settings, result: string)
    requires format != "hex" && format != "HEX6"
    ensures ClipboardText(format, settings, result) == result
  {
  }

  /** Only the first `#` goes: the anchored pattern matches once. */
  lemma {:induction false} OnlyOneHashRemoved(settings: Settings, rest: string)
    ensures ClipboardText("hex", settings, "##" + rest) == "#" + rest
  {
    assert ("##" + rest)[1..] == "#" + rest;
  }
}

=== FILE: cursor_color.dfy ===
/** `get_cursor_color`: a colour function around the cursor if there is one,
    otherwise the word at the cursor, with the `#` before a hex word. The
    editor's word rule is a parameter: `wordAt(p)` is the region `view.word(p)`
    returns. */
module CursorColor {
  import opened Outcomes
  import opened Regions
  import opened Text
  import opened Locator

  /** The editor returns regions inside the buffer. */
  ghost predicate WordsWithin(wordAt: nat -> Region, size: nat) {
    forall p: nat :: wordAt(p).Within(size)
  }

  /** The word after the `#` retry: a word that is only `#` (once stripped) is
      replaced by the word at the next point. */
  function ChosenWord(text: string, pnt: nat, wordAt: nat -> Region): (r: Region)
    requires WordsWithin(wordAt, |text|)
    ensures r == wordAt(pnt) || r == wordAt(pnt + 1)
    ensures r == wordAt(pnt + 1) <== Strip(ExtractWord(text, wordAt(pnt))) == "#"
    ensures r == wordAt(pnt) <== Strip(ExtractWord(text, wordAt(pnt))) != "#"
  {
    var w := wordAt(pnt);
    if Strip(ExtractWord(text, w)) == "#" then wordAt(pnt + 1) else w
  }

  /** The character before the word is `#`: read only when `pnt > 0`, and a
      region before the buffer start reads as empty. */
  predicate HashBefore(text: string, pnt: nat, w: Region)
    requires w.Within(|text|)
  {
    pnt > 0 && w.a > 0 && text[w.a - 1] == '#'
  }

  /** The `#` extension of the word fallback: a word that starts like a hex
      colour and follows a `#` is widened by one character to take the `#` in. */
  function Widen(text: string, pnt: nat, w: Region): (r: Region)
    requires w.Within(|text|)
    ensures r.Within(|text|) && r.b == w.b && (r.a == w.a || r.a == w.a - 1)
    ensures r.a < w.a ==> pnt > 0 && text[r.a] == '#' && HexColorMatch(ExtractWord(text, w))
    ensures HexColorMatch(ExtractWord(text, w)) && HashBefore(text, pnt, w) ==> r.a < w.a
  {
    if HexColorMatch(ExtractWord(text, w)) && HashBefore(text, pnt, w) then Region(w.a - 1, w.b) else w
  }

  /** When the region is widened, its text is `#` followed by the word, and the
      word begins with three hexadecimal digits. */
  lemma {:induction false} WidenedRegionText(text: string, pnt: nat, w: Region)
    requires w.Within(|text|)
    requires Widen(text, pnt, w) != w
    ensures ExtractWord(text, Widen(text, pnt, w)) == "#" + ExtractWord(text, w)
    ensures var word := ExtractWord(text, w);
            |word| >= 3 && IsHexDigit(word[0]) && IsHexDigit(word[1]) && IsHexDigit(word[2])
  {
    var r := Widen(text, pnt, w);
    assert r == Region(w.a - 1, w.b);
    HashThenWord(text, w.a, w.b);
  }

  /** The text of a region that starts one character before a word, on a `#`. */
  lemma {:induction false} HashThenWord(text: string, a: nat, b: nat)
    requires 0 < a <= b <= |text| && text[a - 1] == '#'
    ensures ExtractWord(text, Region(a - 1, b)) == "#" + ExtractWord(text, Region(a, b))
  {
    var c := text[a - 1];
    assert text[a - 1..b] == [c] + text[a..b];
    LowerConcat([c], text[a..b]);
    assert Lower([c]) == "#";
  }

  /** `get_cursor_color(view, pnt)`. A colour function covering the cursor wins
      (an error from `parse_hues` propagates); otherwise the word fallback. */
  method GetCursorColor(text: string, pnt: nat, hsl: seq<FuncMatch>, hwb: seq<FuncMatch>, funcs: seq<FuncMatch>,
                        wordAt: nat -> Region)
    returns (r: Result<Located>)
    requires WellFormedMatches(text, pnt, hsl, hwb, funcs)
    requires WordsWithin(wordAt, |text|)
    ensures ColorFuncAt(text, pnt, hsl, hwb, funcs).Err? ==> r == Err(ColorFuncAt(text, pnt, hsl, hwb, funcs).error)
    ensures ColorFuncAt(text, pnt, hsl, hwb, funcs) == Ok(None) ==>
              var region := Widen(text, pnt, ChosenWord(text, pnt, wordAt));
              r == Ok(Located(region, CssText(ExtractWord(text, region))))
    ensures ColorFuncAt(text, pnt, hsl, hwb, funcs).Ok? && ColorFuncAt(text, pnt, hsl, hwb, funcs).value.Some? ==>
              r == Ok(ColorFuncAt(text, pnt, hsl, hwb, funcs).value.value)
    ensures r.Ok? ==> r.value.region.Within(|text|)
  {
    var rgb := FindColorFuncAtPoint(text, pnt, hsl, hwb, funcs);
    if rgb.Err? {
      return Err(rgb.error);
    }
    if rgb.value.Some? {
      return Ok(rgb.value.value);
    }
    var wordRegion := WordAtCursor(text, pnt, wordAt);
    return Ok(Located(wordRegion, CssText(ExtractWord(text, wordRegion))));
  }

  /** The word fallback of `get_cursor_color`: the word at the cursor, the next
      word when that is only `#`, and the `#` before a hex word. */
  method WordAtCursor(text: string, pnt: nat, wordAt: nat -> Region) returns (wordRegion: Region)
    requires WordsWithin(wordAt, |text|)
    ensures wordRegion == Widen(text, pnt, ChosenWord(text, pnt, wordAt))
  {
    wordRegion := wordAt(pnt);
    var word := ExtractWord(text, wordRegion);
    if Strip(word) == "#" {
      wordRegion := wordAt(pnt + 1);
      word := ExtractWord(text, wordRegion);
    }
    assert wordRegion == ChosenWord(text, pnt, wordAt);
    if HexColorMatch(word) {
      if pnt > 0 && wordRegion.a > 0 && text[wordRegion.a - 1] == '#' {
        wordRegion := Region(wordRegion.a - 1, wordRegion.b);
      }
    }
  }

  /** The `pnt > 0` guard looks at the cursor, not at the word: for "#abc"
      with the cursor on the `#` at offset 0 (the word there is `#`, so the
      word `abc` at offset 1 is taken), the `#` is left out, while the same
      word reached from offset 1 gets it. */
  lemma HashAtBufferStartDropped()
    ensures Region(1, 4).Within(|"#abc"|)
    ensures Widen("#abc", 0, Region(1, 4)) == Region(1, 4)
    ensures Widen("#abc", 1, Region(1, 4)) == Region(0, 4)
  {
    var word := ExtractWord("#abc", Region(1, 4));
    assert "#abc"[1..4] == "abc";
    LowerAt("abc", 0);
    LowerAt("abc", 1);
    LowerAt("abc", 2);
    assert HexColorMatch(word);
  }
}

=== FILE: decimals.dfy ===
/** `decimal.Decimal(text)` on the numbers the colour patterns capture: an optional
    sign followed by digits and dots (`[+\-]?[0-9.]+`). A value is exact, so it is
    a `real`. */
module Decimals {
  import opened Outcomes

  predicate IsDigit(c: char) { '0' <= c <= '9' }

  predicate AllDigits(s: string) { forall i :: 0 <= i < |s| ==> IsDigit(s[i]) }

  /** The number a string of decimal digits denotes (0 for the empty string). */
  function DigitsValue(s: string): nat
    requires AllDigits(s)
  {
    if s == [] then 0 else 10 * DigitsValue(s[..|s| - 1]) + (s[|s| - 1] as int - '0' as int)
  }

  function Pow10(n: nat): (r: nat)
    ensures r >= 1
  {
    if n == 0 then 1 else 10 * Pow10(n - 1)
  }

  /** The index of the first '.', or |s| when there is none. */
  function DotIndex(s: string): (i: nat)
    ensures i <= |s|
    ensures i < |s| ==> s[i] == '.'
    ensures forall j :: 0 <= j < i ==> s[j] != '.'
  {
    if s == [] then 0 else if s[0] == '.' then 0 else 1 + DotIndex(s[1..])
  }

  /** A Decimal's value from its coefficient and (negated) exponent: `c` times
      ten to the power `-e`. */
  function Scale(c: nat, e: nat): (v: real)
    ensures v >= 0.0
  {
    if e == 0 then c as real else Scale(c, e - 1) / 10.0
  }

  /** An unsigned literal: digits with at most one decimal point and at least one digit. */
  function ParseUnsigned(s: string): (r: Option<real>)
    ensures r.Some? ==> r.value >= 0.0
  {
    var i := DotIndex(s);
    var whole := s[..i];
    var frac := if i < |s| then s[i + 1..] else [];
    if AllDigits(whole) && AllDigits(frac) && |whole| + |frac| > 0 then
      Some(Scale(DigitsValue(whole + frac), |frac|))
    else
      None
  }

  /** `Decimal(s)`: `None` where Python raises `InvalidOperation`. Characters
      outside the captured alphabet are rejected as well. */
  function ParseDecimal(s: string): (r: Option<real>)
    ensures r.Some? && (s == [] || s[0] != '-') ==> r.value >= 0.0
  {
    if s != [] && s[0] == '-' then
      match ParseUnsigned(s[1..])
      case Some(v) => Some(-v)
      case None => None
    else if s != [] && s[0] == '+' then ParseUnsigned(s[1..])
    else ParseUnsigned(s)
  }

  /** Appending one digit multiplies the value by ten and adds the digit. */
  lemma {:induction false} DigitsValueSnoc(s: string, c: char)
    requires AllDigits(s) && IsDigit(c)
    ensures AllDigits(s + [c])
    ensures DigitsValue(s + [c]) == 10 * DigitsValue(s) + (c as int - '0' as int)
  {
    assert (s + [c])[..|s|] == s;
  }

  /** The value of a concatenation of digit strings: the left part shifted by the
      length of the right part. */
  lemma {:induction false} DigitsValueConcat(s: string, t: string)
    requires AllDigits(s) && AllDigits(t)
    ensures AllDigits(s + t)
    ensures DigitsValue(s + t) == DigitsValue(s) * Pow10(|t|) + DigitsValue(t)
    decreases |t|
  {
    if t == [] {
      assert s + t == s;
    } else {
      var t' := t[..|t| - 1];
      var c := t[|t| - 1];
      assert t == t' + [c];
      assert s + t == (s + t') + [c];
      DigitsValueConcat(s, t');
      DigitsValueSnoc(s + t', c);
      DigitsValueSnoc(t', c);
      assert Pow10(|t|) == 10 * Pow10(|t'|);
      ShiftByOneDigit(DigitsValue(s), Pow10(|t'|), DigitsValue(t'), c as int - '0' as int);
    }
  }

  /** The arithmetic step of `DigitsValueConcat`. */
  lemma {:induction false} ShiftByOneDigit(vs: int, p: int, vt: int, d: int)
    ensures 10 * (vs * p + vt) + d == vs * (10 * p) + (10 * vt + d)
  {
    assert 10 * (vs * p) == vs * (10 * p);
  }

  lemma {:induction false} DotIndexOfDigits(w: string, rest: string)
    requires AllDigits(w)
    requires rest == [] || rest[0] == '.'
    ensures DotIndex(w + rest) == |w|
    decreases |w|
  {
    if w != [] {
      assert IsDigit(w[0]);
      assert (w + rest)[1..] == w[1..] + rest;
      DotIndexOfDigits(w[1..], rest);
    } else {
      assert w + rest == rest;
    }
  }

  /** A literal without a point denotes its digits. */
  lemma {:induction false} ParseDigits(d: string)
    requires AllDigits(d) && d != []
    ensures ParseDecimal(d) == Some(DigitsValue(d) as real)
  {
    assert d[0] != '-' && d[0] != '+' by { assert IsDigit(d[0]); }
    DotIndexOfDigits(d, []);
    assert d + [] == d;
    assert d[..|d|] == d;
    assert d + [] == d;
  }

  lemma {:induction false} ScaleIsDivision(c: nat, e: nat)
    ensures Scale(c, e) == c as real / Pow10(e) as real
  {
    if e > 0 {
      ScaleIsDivision(c, e - 1);
      var p := Pow10(e - 1) as real;
      assert Pow10(e) as real == 10.0 * p;
      assert c as real / p / 10.0 == c as real / (10.0 * p);
    }
  }

  lemma {:induction false} SplitFraction(a: nat, b: nat, p: nat)
    requires p > 0
    ensures a as real + b as real / p as real == (a * p + b) as real / p as real
  {
    assert (a * p + b) as real == a as real * p as real + b as real;
  }

  /** A literal made of digits, one point and more characters is read as
      unsigned, with the point at the end of the whole part. */
  lemma {:induction false} PointedShape(w: string, f: string)
    requires AllDigits(w)
    ensures ParseDecimal(w + "." + f) == ParseUnsigned(w + "." + f)
    ensures DotIndex(w + "." + f) == |w|
  {
    var s := w + "." + f;
    assert s == w + ("." + f);
    DotIndexOfDigits(w, "." + f);
    assert s[0] == '.' || IsDigit(s[0]) by {
      if w != [] { assert s[0] == w[0]; }
    }
  }

  lemma {:induction false} PointedParts(w: string, f: string)
    requires AllDigits(w) && AllDigits(f) && |w| + |f| > 0
    ensures AllDigits(w + f)
    ensures ParseDecimal(w + "." + f) == Some(Scale(DigitsValue(w + f), |f|))
  {
    var s := w + "." + f;
    PointedShape(w, f);
    assert s[..|w|] == w;
    assert s[|w| + 1..] == f;
    DigitsValueConcat(w, f);
  }

  lemma {:induction false} PositionalValue(w: string, f: string)
    requires AllDigits(w) && AllDigits(f)
    ensures AllDigits(w + f)
    ensures Scale(DigitsValue(w + f), |f|) == DigitsValue(w) as real + DigitsValue(f) as real / Pow10(|f|) as real
  {
    DigitsValueConcat(w, f);
    ScaleIsDivision(DigitsValue(w + f), |f|);
    SplitFraction(DigitsValue(w), DigitsValue(f), Pow10(|f|));
  }

  /** `w.f` has the value its positional reading gives: the whole part plus the
      fraction digits over ten to the number of fraction digits. */
  lemma {:induction false} ParsePointed(w: string, f: string)
    requires AllDigits(w) && AllDigits(f) && |w| + |f| > 0
    ensures ParseDecimal(w + "." + f)
            == Some(DigitsValue(w) as real + DigitsValue(f) as real / Pow10(|f|) as real)
  {
    PointedParts(w, f);
    PositionalValue(w, f);
    var v := Scale(DigitsValue(w + f), |f|);
    assert ParseDecimal(w + "." + f) == Some(v);
  }

  /** A second decimal point makes the literal invalid. */
  lemma {:induction false} ParseRejectsSecondPoint(w: string, f: string, g: string)
    requires AllDigits(w) && AllDigits(f) && AllDigits(g)
    ensures ParseDecimal(w + "." + f + "." + g) == None
  {
    var fg := f + "." + g;
    assert w + "." + f + "." + g == w + "." + fg;
    PointedShape(w, fg);
    assert (w + "." + fg)[|w| + 1..] == fg;
    assert fg[|f|] == '.';
  }

  /** An unsigned literal with no digit is invalid. */
  lemma {:induction false} UnsignedNeedsDigit(s: string)
    requires forall k :: 0 <= k < |s| ==> !IsDigit(s[k])
    ensures ParseUnsigned(s) == None
  {
    var i := DotIndex(s);
    var whole := s[..i];
    var frac := if i < |s| then s[i + 1..] else [];
    if |whole| > 0 {
      assert whole[0] == s[0];
    } else if |frac| > 0 {
      assert frac[0] == s[i + 1];
    }
  }

  /** A literal with no digit at all ("", ".", "+", "-.") is invalid. */
  lemma {:induction false} ParseNeedsDigit(s: string)
    requires forall k :: 0 <= k < |s| ==> !IsDigit(s[k])
    ensures ParseDecimal(s) == None
  {
    if s != [] && (s[0] == '-' || s[0] == '+') {
      var t := s[1..];
      assert forall k :: 0 <= k < |t| ==> t[k] == s[k + 1];
      UnsignedNeedsDigit(t);
    } else {
      UnsignedNeedsDigit(s);
    }
  }

  /** The decimal numeral of a natural number. */
  function Numeral(n: nat): (r: string)
    ensures AllDigits(r) && r != []
  {
    var d := ['0' + (n % 10) as char];
    if n < 10 then d else Numeral(n / 10) + d
  }

  /** Reading back the numeral of `n` gives `n`. */
  lemma {:induction false} NumeralRoundTrip(n: nat)
    ensures DigitsValue(Numeral(n)) == n
    ensures ParseDecimal(Numeral(n)) == Some(n as real)
  {
    var c := '0' + (n % 10) as char;
    if n < 10 {
      assert Numeral(n) == [] + [c];
      DigitsValueSnoc([], c);
    } else {
      NumeralRoundTrip(n / 10);
      DigitsValueSnoc(Numeral(n / 10), c);
    }
    ParseDigits(Numeral(n));
  }

  /** A leading `+` leaves the value as it is; a leading `-` negates it, and
      either sign is rejected with whatever follows it when that is rejected. */
  lemma {:induction false} ParseSign(s: string)
    requires s == [] || (s[0] != '-' && s[0] != '+')
    ensures ParseDecimal("+" + s) == ParseDecimal(s)
    ensures ParseDecimal("-" + s) == (if ParseDecimal(s).Some? then Some(-ParseDecimal(s).value) else None)
  {
    assert ("+" + s)[1..] == s;
    assert ("-" + s)[1..] == s;
  }

  /** A negative whole angle such as `-120` reads as minus its numeral's value. */
  lemma {:induction false} SignedNumeralRoundTrip(n: nat)
    ensures ParseDecimal("-" + Numeral(n)) == Some(-(n as real))
    ensures ParseDecimal("+" + Numeral(n)) == Some(n as real)
  {
    NumeralRoundTrip(n);
    ParseSign(Numeral(n));
  }
}

=== FILE: hues.dfy ===
/** `parse_hues`: from the named groups of an HSL or HWB match to the space, the
    three coordinates and the opacity handed to the colour library. */
module Hues {
  import opened Outcomes
  import opened Decimals

  /** The named groups of the HSL and HWB patterns: `none`, the four angle
      groups, the two channels of each pattern and the two forms of opacity. */
  datatype GroupName = NoneWord | Angle(unit: AngleUnit) | Sat | Light | White | Black | OpDec | OpPerc

  /** The named groups of one match: a group that did not take part is absent. */
  type Groups = map<GroupName, string>

  /** Python's `if match.group(name):` — the group took part and is not empty. */
  predicate Present(g: Groups, name: GroupName) {
    name in g && g[name] != ""
  }

  /** The arguments of `Color(space, [hue, c1, c2], opacity)`. */
  datatype HueColor = HueColor(space: string, coords: seq<real>, alpha: real)

  /** The angle groups `parse_hues` tests after `none`, in that order. */
  datatype AngleUnit = Deg | Rad | Grad | Turn {
    /** An angle of `v` in this unit, in degrees. */
    function ToDegrees(v: real): real {
      match this
      case Deg => v
      case Rad => v * DegreesPerRadian
      case Grad => v * 9.0 / 10.0
      case Turn => v * 360.0
    }
  }

  /** 180 / pi to the precision of a double: `math.degrees` multiplies by it in
      binary floating point, whose rounding the model does not follow. */
  const DegreesPerRadian: real := 57.29577951308232

  /** `Decimal(match.group(name))`, failing as Python does on an invalid literal. */
  function GroupDecimal(g: Groups, name: GroupName): (r: Result<real>)
    requires name in g
    ensures r.Err? <==> ParseDecimal(g[name]).None?
    ensures r.Ok? ==> Some(r.value) == ParseDecimal(g[name])
  {
    match ParseDecimal(g[name])
    case Some(v) => Ok(v)
    case None => Err(InvalidOperation(g[name]))
  }

  /** One `if match.group(unit): hue = ...` step: a present group replaces the
      hue found so far by its value times the unit's factor. */
  function AngleStep(g: Groups, unit: AngleUnit, prev: Result<real>): (r: Result<real>)
    ensures !Present(g, Angle(unit)) ==> r == prev
    ensures prev.Err? ==> r == prev
    ensures prev.Ok? && Present(g, Angle(unit)) ==>
              (r.Err? <==> ParseDecimal(g[Angle(unit)]).None?)
              && (r.Ok? ==> r.value == unit.ToDegrees(ParseDecimal(g[Angle(unit)]).value))
  {
    if prev.Err? || !Present(g, Angle(unit)) then prev
    else
      match GroupDecimal(g, Angle(unit))
      case Ok(v) => Ok(unit.ToDegrees(v))
      case Err(e) => Err(e)
  }

  /** The angle group of `unit` took part with a literal `Decimal` rejects. */
  predicate InvalidAngle(g: Groups, unit: AngleUnit) {
    Present(g, Angle(unit)) && ParseDecimal(g[Angle(unit)]).None?
  }

  /** The hue in degrees. It starts at 0, which is also what `none` stores;
      each angle group present replaces it, so `turn`, tested last, wins; it
      fails exactly when one of the angle groups present is invalid. */
  function Hue(g: Groups): (r: Result<real>)
    ensures r.Err? <==> InvalidAngle(g, Deg) || InvalidAngle(g, Rad) || InvalidAngle(g, Grad) || InvalidAngle(g, Turn)
    ensures Present(g, Angle(Turn)) && r.Ok? ==>
              ParseDecimal(g[Angle(Turn)]).Some? && r.value == Turn.ToDegrees(ParseDecimal(g[Angle(Turn)]).value)
  {
    var h := Ok(0.0);
    AngleStep(g, Turn, AngleStep(g, Grad, AngleStep(g, Rad, AngleStep(g, Deg, h))))
  }

  /** The opacity: 1 by default, the `opdec` value when present, otherwise `opperc` / 100. */
  function Opacity(g: Groups): (r: Result<real>)
    ensures !Present(g, OpDec) && !Present(g, OpPerc) ==> r == Ok(1.0)
    ensures Present(g, OpDec) ==> r == GroupDecimal(g, OpDec)
    ensures !Present(g, OpDec) && Present(g, OpPerc) ==> (r.Err? <==> ParseDecimal(g[OpPerc]).None?)
    ensures !Present(g, OpDec) && Present(g, OpPerc) && r.Ok? ==>
              Some(r.value * 100.0) == ParseDecimal(g[OpPerc])
  {
    if Present(g, OpDec) then GroupDecimal(g, OpDec)
    else if Present(g, OpPerc) then
      match GroupDecimal(g, OpPerc)
      case Ok(v) => Ok(v / 100.0)
      case Err(e) => Err(e)
    else Ok(1.0)
  }

  /** `Decimal(match.group(name) or 0) / 100`: a percentage as a fraction, 0 when absent. */
  function Fraction(g: Groups, name: GroupName): (r: Result<real>)
    ensures !Present(g, name) ==> r == Ok(0.0)
    ensures Present(g, name) ==> (r.Err? <==> ParseDecimal(g[name]).None?)
    ensures Present(g, name) && r.Ok? ==> Some(r.value * 100.0) == ParseDecimal(g[name])
  {
    if Present(g, name) then
      match GroupDecimal(g, name)
      case Ok(v) => Ok(v / 100.0)
      case Err(e) => Err(e)
    else Ok(0.0)
  }

  /** The two channel groups of a format, or none for a format `parse_hues` does not know. */
  function ChannelNames(format: string): Option<(GroupName, GroupName)> {
    if format == "hsl" then Some((Sat, Light))
    else if format == "hwb" then Some((White, Black))
    else None
  }

  /** `parse_hues(match, format)`: the hue and the opacity are computed first,
      whatever the format; `None` for a format other than hsl and hwb. */
  function ParseHues(g: Groups, format: string): (r: Result<Option<HueColor>>)
    ensures r.Ok? ==> Hue(g).Ok? && Opacity(g).Ok?
    ensures r.Ok? && ChannelNames(format).Some? ==>
              Fraction(g, ChannelNames(format).value.0).Ok? && Fraction(g, ChannelNames(format).value.1).Ok?
    ensures ChannelNames(format).None? ==>
              r == (if Hue(g).Err? then Err(Hue(g).error)
                    else if Opacity(g).Err? then Err(Opacity(g).error)
                    else Ok(None))
    ensures ChannelNames(format).Some? && r.Ok? ==>
              var (n1, n2) := ChannelNames(format).value;
              r.value.Some? && r.value.value.space == format
              && r.value.value.coords == [Hue(g).value, Fraction(g, n1).value, Fraction(g, n2).value]
              && r.value.value.alpha == Opacity(g).value
    ensures ChannelNames(format).Some? ==>
              var (n1, n2) := ChannelNames(format).value;
              (r.Err? <==> Hue(g).Err? || Opacity(g).Err? || Fraction(g, n1).Err? || Fraction(g, n2).Err?)
  {
    var hue :- Hue(g);
    var opacity :- Opacity(g);
    match ChannelNames(format)
    case None => Ok(None)
    case Some((n1, n2)) =>
      var c1 :- Fraction(g, n1);
      var c2 :- Fraction(g, n2);
      Ok(Some(HueColor(format, [hue, c1, c2], opacity)))
  }

  /** Exactly one angle group, that of `unit`, took part in the match. */
  predicate OnlyAngle(g: Groups, unit: AngleUnit) {
    forall u: AngleUnit :: Present(g, Angle(u)) <==> u == unit
  }

  /** With no angle group (only `none`, or nothing at all) the hue is 0. */
  lemma {:induction false} HueWithoutAngleIsZero(g: Groups)
    requires forall u: AngleUnit :: !Present(g, Angle(u))
    ensures Hue(g) == Ok(0.0)
  {
    assert !Present(g, Angle(Deg)) && !Present(g, Angle(Rad));
    assert !Present(g, Angle(Grad)) && !Present(g, Angle(Turn));
  }

  /** A step whose angle group is absent keeps the hue found so far. */
  lemma {:induction false} StepSkips(g: Groups, unit: AngleUnit, prev: Result<real>)
    requires !Present(g, Angle(unit))
    ensures AngleStep(g, unit, prev) == prev
  {
  }

  /** A lone angle group decides the hue: its value converted from its unit
      (the number itself for `deg` or no unit, 9/10 of it for `grad`, 360 times
      it for `turn`), whatever the order in which the groups are tested. */
  lemma {:induction false} HueOfUnit(g: Groups, unit: AngleUnit, v: real)
    requires OnlyAngle(g, unit)
    requires ParseDecimal(g[Angle(unit)]) == Some(v)
    ensures Hue(g) == Ok(unit.ToDegrees(v))
  {
    var h0: Result<real> := Ok(0.0);
    var own := AngleStep(g, unit, h0);
    assert GroupDecimal(g, Angle(unit)) == Ok(v);
    match unit
    case Deg =>
      StepSkips(g, Rad, own);
      StepSkips(g, Grad, own);
      StepSkips(g, Turn, own);
    case Rad =>
      StepSkips(g, Deg, h0);
      StepSkips(g, Grad, own);
      StepSkips(g, Turn, own);
    case Grad =>
      StepSkips(g, Deg, h0);
      StepSkips(g, Rad, h0);
      StepSkips(g, Turn, own);
    case Turn =>
      StepSkips(g, Deg, h0);
      StepSkips(g, Rad, h0);
      StepSkips(g, Grad, h0);
  }

  /** An angle group whose literal Decimal rejects makes the whole parse fail. */
  lemma {:induction false} HueInvalidLiteral(g: Groups, unit: AngleUnit)
    requires OnlyAngle(g, unit)
    requires ParseDecimal(g[Angle(unit)]) == None
    ensures Hue(g) == Err(InvalidOperation(g[Angle(unit)]))
    ensures forall format :: ParseHues(g, format) == Err(InvalidOperation(g[Angle(unit)]))
  {
    assert Present(g, Angle(Deg)) == (unit == Deg);
    assert Present(g, Angle(Rad)) == (unit == Rad);
    assert Present(g, Angle(Grad)) == (unit == Grad);
    assert Present(g, Angle(Turn)) == (unit == Turn);
  }

  /** Converting the unit never changes the sign of the angle. */
  lemma {:induction false} HueKeepsSign(g: Groups, unit: AngleUnit, v: real)
    requires OnlyAngle(g, unit)
    requires ParseDecimal(g[Angle(unit)]) == Some(v)
    ensures Hue(g).Ok?
    ensures (Hue(g).value > 0.0 <==> v > 0.0) && (Hue(g).value < 0.0 <==> v < 0.0)
  {
    HueOfUnit(g, unit, v);
    match unit
    case Deg =>
    case Rad =>
      if v > 0.0 { assert v * DegreesPerRadian > 0.0; }
      if v < 0.0 { assert v * DegreesPerRadian < 0.0; }
    case Grad =>
    case Turn =>
  }

  /** The same angle in three units gives one hue: d deg, gr grad with
      9 gr = 10 d, and t turn with 360 t = d. */
  lemma {:induction false} UnitsAgree(gDeg: Groups, gGrad: Groups, gTurn: Groups, d: real, gr: real, t: real)
    requires OnlyAngle(gDeg, Deg) && ParseDecimal(gDeg[Angle(Deg)]) == Some(d)
    requires OnlyAngle(gGrad, Grad) && ParseDecimal(gGrad[Angle(Grad)]) == Some(gr) && gr * 9.0 == d * 10.0
    requires OnlyAngle(gTurn, Turn) && ParseDecimal(gTurn[Angle(Turn)]) == Some(t) && t * 360.0 == d
    ensures Hue(gDeg) == Hue(gGrad) == Hue(gTurn) == Ok(d)
  {
    HueOfUnit(gDeg, Deg, d);
    HueOfUnit(gGrad, Grad, gr);
    HueOfUnit(gTurn, Turn, t);
    assert Deg.ToDegrees(d) == d;
    assert Grad.ToDegrees(gr) == d by {
      assert gr * 9.0 / 10.0 == d * 10.0 / 10.0;
    }
    assert Turn.ToDegrees(t) == d;
  }

  /** For hsl the channels are saturation and lightness over 100; for hwb
      whiteness and blackness over 100; a literal without a minus sign gives a
      fraction of at least 0. */
  lemma {:induction false} ChannelsAreFractions(g: Groups, format: string, c: HueColor)
    requires ParseHues(g, format) == Ok(Some(c))
    ensures format == "hsl" || format == "hwb"
    ensures var (n1, n2) := ChannelNames(format).value;
            (Present(g, n1) ==> ParseDecimal(g[n1]) == Some(c.coords[1] * 100.0))
            && (!Present(g, n1) ==> c.coords[1] == 0.0)
            && (Present(g, n2) ==> ParseDecimal(g[n2]) == Some(c.coords[2] * 100.0))
            && (!Present(g, n2) ==> c.coords[2] == 0.0)
    ensures var (n1, n2) := ChannelNames(format).value;
            (n1 in g && (g[n1] == [] || g[n1][0] != '-') ==> c.coords[1] >= 0.0)
            && (n2 in g && (g[n2] == [] || g[n2][0] != '-') ==> c.coords[2] >= 0.0)
  {
    assert ChannelNames(format).Some?;
    var (n1, n2) := ChannelNames(format).value;
    assert c.coords == [Hue(g).value, Fraction(g, n1).value, Fraction(g, n2).value];
    FractionValue(g, n1, c.coords[1]);
    FractionValue(g, n2, c.coords[2]);
  }

  /** One channel of `parse_hues`: the group's value over 100, 0 when absent,
      and not negative without a minus sign. */
  lemma {:induction false} FractionValue(g: Groups, name: GroupName, v: real)
    requires Fraction(g, name) == Ok(v)
    ensures Present(g, name) ==> ParseDecimal(g[name]) == Some(v * 100.0)
    ensures !Present(g, name) ==> v == 0.0
    ensures name in g && (g[name] == [] || g[name][0] != '-') ==> v >= 0.0
  {
  }
}

=== FILE: locator.dfy ===
/** `find_color_func_at_point` and `extract_word`: which colour function around
    the cursor is taken, and in what priority. The regular-expression engine is
    not modelled: each pattern's matches over the window text are given, in the
    order `finditer` yields them. */
module Locator {
  import opened Outcomes
  import opened Regions
  import opened Text
  import Hues

  /** One match over the window text: its span, relative to the window start,
      and its named groups. */
  datatype FuncMatch = FuncMatch(start: nat, end: nat, groups: Hues.Groups)

  /** What the colour is built from: the arguments `parse_hues` computed for an
      HSL or HWB match, or the lower-cased text handed to `Color(...)`. */
  datatype ColorSource = HueArgs(color: Hues.HueColor) | CssText(text: string)

  /** A located colour: its buffer region and what it is built from. */
  datatype Located = Located(region: Region, source: ColorSource)

  /** Every span lies inside a window text of `len` characters. */
  predicate SpansWithin(ms: seq<FuncMatch>, len: nat) {
    forall i :: 0 <= i < |ms| ==> ms[i].start <= ms[i].end <= len
  }

  /** The match covers the cursor, both ends inclusive. */
  predicate Covers(m: FuncMatch, rel: int) {
    m.start <= rel <= m.end
  }

  /** The window's length for a cursor `pnt` in a buffer of `size` characters. */
  function WindowLength(size: nat, pnt: nat): nat
    requires pnt <= size
  {
    var w := SearchRegion(size, pnt);
    w.b - w.a
  }

  /** The matches of the three patterns, as the caller must supply them. */
  predicate WellFormedMatches(text: string, pnt: nat, hsl: seq<FuncMatch>, hwb: seq<FuncMatch>, funcs: seq<FuncMatch>) {
    pnt <= |text|
    && SpansWithin(hsl, WindowLength(|text|, pnt))
    && SpansWithin(hwb, WindowLength(|text|, pnt))
    && SpansWithin(funcs, WindowLength(|text|, pnt))
  }

  /** No match of `ms` covers `rel`. */
  predicate NoneCovers(ms: seq<FuncMatch>, rel: int) {
    forall i :: 0 <= i < |ms| ==> !Covers(ms[i], rel)
  }

  /** The index of the first match that covers `rel`, in enumeration order. */
  function FirstCovering(ms: seq<FuncMatch>, rel: int): (r: Option<nat>)
    ensures r.Some? ==> r.value < |ms| && Covers(ms[r.value], rel)
    ensures r.Some? ==> forall j :: 0 <= j < r.value ==> !Covers(ms[j], rel)
    ensures r.None? <==> NoneCovers(ms, rel)
  {
    if ms == [] then None
    else if Covers(ms[0], rel) then Some(0)
    else
      match FirstCovering(ms[1..], rel)
      case Some(i) => Some(i + 1)
      case None => None
  }

  /** `extract_word`: the region's text, lower-cased. */
  function ExtractWord(text: string, r: Region): (w: string)
    requires r.Within(|text|)
    ensures |w| == r.b - r.a
  {
    Lower(text[r.a..r.b])
  }

  /** The extracted word is the region's text with every letter in lower
      case: character by character, an upper-case ASCII letter becomes its
      lower-case form and every other character is kept. */
  lemma {:induction false} ExtractWordLowers(text: string, r: Region, i: nat)
    requires r.Within(|text|) && i < r.b - r.a
    ensures ExtractWord(text, r)[i] == LowerChar(text[r.a + i])
    ensures !('A' <= ExtractWord(text, r)[i] <= 'Z')
  {
    LowerAt(text[r.a..r.b], i);
  }

  /** The buffer region of a window-relative match. */
  function Shift(w: Region, m: FuncMatch): Region {
    Region(w.a + m.start, w.a + m.end)
  }

  /** The three patterns, in the order they are tried. */
  datatype Pattern = HslPattern | HwbPattern | FuncPattern

  /** The match the loops settle on: the first HSL match covering `rel`, else
      the first HWB match, else the first generic match. */
  function Pick(hsl: seq<FuncMatch>, hwb: seq<FuncMatch>, funcs: seq<FuncMatch>, rel: int, len: nat)
    : (r: Option<(Pattern, FuncMatch)>)
    requires SpansWithin(hsl, len) && SpansWithin(hwb, len) && SpansWithin(funcs, len)
    ensures r.Some? ==> Covers(r.value.1, rel) && r.value.1.end <= len
  {
    match FirstCovering(hsl, rel)
    case Some(i) => Some((HslPattern, hsl[i]))
    case None =>
      match FirstCovering(hwb, rel)
      case Some(i) => Some((HwbPattern, hwb[i]))
      case None =>
        match FirstCovering(funcs, rel)
        case Some(i) => Some((FuncPattern, funcs[i]))
        case None => None
  }

  /** The result of taking an HSL or HWB match: `parse_hues` may raise. */
  function HueResult(region: Region, m: FuncMatch, format: string): (r: Result<Option<Located>>)
    requires format == "hsl" || format == "hwb"
    ensures r.Ok? ==> r.value.Some? && r.value.value.region == region && r.value.value.source.HueArgs?
    ensures r.Err? <==> Hues.ParseHues(m.groups, format).Err?
    ensures var parsed := Hues.ParseHues(m.groups, format);
            parsed.Ok? ==> parsed.value.Some? && r == Ok(Some(Located(region, HueArgs(parsed.value.value))))
  {
    match Hues.ParseHues(m.groups, format)
    case Ok(Some(c)) => Ok(Some(Located(region, HueArgs(c))))
    case Ok(None) => Ok(None)
    case Err(e) => Err(e)
  }

  /** What a picked match turns into at its buffer region. */
  function Build(text: string, region: Region, p: Pattern, m: FuncMatch): (r: Result<Option<Located>>)
    requires region.Within(|text|)
    ensures r.Ok? ==> r.value.Some? && r.value.value.region == region
    ensures r.Ok? ==> (r.value.value.source.CssText? <==> p == FuncPattern)
    ensures p == FuncPattern ==> r == Ok(Some(Located(region, CssText(ExtractWord(text, region)))))
    ensures p != FuncPattern ==>
              var parsed := Hues.ParseHues(m.groups, if p == HslPattern then "hsl" else "hwb");
              parsed.Ok? ==> r == Ok(Some(Located(region, HueArgs(parsed.value.value))))
  {
    match p
    case HslPattern => HueResult(region, m, "hsl")
    case HwbPattern => HueResult(region, m, "hwb")
    case FuncPattern => Ok(Some(Located(region, CssText(ExtractWord(text, region)))))
  }

  /** The specification of `find_color_func_at_point`. */
  function ColorFuncAt(text: string, pnt: nat, hsl: seq<FuncMatch>, hwb: seq<FuncMatch>, funcs: seq<FuncMatch>)
    : (r: Result<Option<Located>>)
    requires WellFormedMatches(text, pnt, hsl, hwb, funcs)
    ensures r.Ok? && r.value.Some? ==>
              var region := r.value.value.region;
              region.ContainsPoint(pnt) && region.Inside(SearchRegion(|text|, pnt)) && region.Within(|text|)
  {
    var w := SearchRegion(|text|, pnt);
    match Pick(hsl, hwb, funcs, pnt - w.a, WindowLength(|text|, pnt))
    case None => Ok(None)
    case Some((p, m)) => Build(text, Shift(w, m), p, m)
  }

  /** The loop over one pattern's matches: the first that covers `rel`. */
  method FindCovering(ms: seq<FuncMatch>, rel: int) returns (found: Option<nat>)
    ensures found == FirstCovering(ms, rel)
  {
    var i := 0;
    while i < |ms|
      invariant 0 <= i <= |ms|
      invariant forall j :: 0 <= j < i ==> !Covers(ms[j], rel)
    {
      if ms[i].start <= rel <= ms[i].end {
        return Some(i);
      }
      i := i + 1;
    }
    return None;
  }

  /** The three loops of `find_color_func_at_point`, in order: the match they
      stop at and the pattern it belongs to. */
  method FindMatch(hsl: seq<FuncMatch>, hwb: seq<FuncMatch>, funcs: seq<FuncMatch>, rel: int, len: nat)
    returns (picked: Option<(Pattern, FuncMatch)>)
    requires SpansWithin(hsl, len) && SpansWithin(hwb, len) && SpansWithin(funcs, len)
    ensures picked == Pick(hsl, hwb, funcs, rel, len)
  {
    var found := FindCovering(hsl, rel);
    if found.Some? {
      return Some((HslPattern, hsl[found.value]));
    }
    found := FindCovering(hwb, rel);
    if found.Some? {
      return Some((HwbPattern, hwb[found.value]));
    }
    found := FindCovering(funcs, rel);
    if found.Some? {
      return Some((FuncPattern, funcs[found.value]));
    }
    return None;
  }

  /** `find_color_func_at_point(view, pnt)`. */
  method FindColorFuncAtPoint(text: string, pnt: nat, hsl: seq<FuncMatch>, hwb: seq<FuncMatch>, funcs: seq<FuncMatch>)
    returns (r: Result<Option<Located>>)
    requires WellFormedMatches(text, pnt, hsl, hwb, funcs)
    ensures r == ColorFuncAt(text, pnt, hsl, hwb, funcs)
  {
    var window := SearchRegion(|text|, pnt);
    var picked := FindMatch(hsl, hwb, funcs, pnt - window.a, WindowLength(|text|, pnt));
    if picked.None? {
      NothingPicked(text, pnt, hsl, hwb, funcs);
      return Ok(None);
    }
    var (pattern, m) := picked.value;
    PickedBuilds(text, pnt, hsl, hwb, funcs, pattern, m);
    r := Build(text, Shift(window, m), pattern, m);
  }

  /** A picked match is built at its shifted region. */
  lemma {:induction false} PickedBuilds(text: string, pnt: nat, hsl: seq<FuncMatch>, hwb: seq<FuncMatch>, funcs: seq<FuncMatch>,
                                        p: Pattern, m: FuncMatch)
    requires WellFormedMatches(text, pnt, hsl, hwb, funcs)
    requires Pick(hsl, hwb, funcs, pnt - SearchRegion(|text|, pnt).a, WindowLength(|text|, pnt)) == Some((p, m))
    ensures Shift(SearchRegion(|text|, pnt), m).Within(|text|)
    ensures ColorFuncAt(text, pnt, hsl, hwb, funcs) == Build(text, Shift(SearchRegion(|text|, pnt), m), p, m)
  {
  }

  /** Priority between the patterns: an HSL match covering the cursor decides
      the result, whatever the other patterns found; an HWB match decides it
      when no HSL match covers the cursor. */
  lemma {:induction false} PatternPriority(text: string, pnt: nat, hsl: seq<FuncMatch>, hwb: seq<FuncMatch>, funcs: seq<FuncMatch>,
                                           hwb': seq<FuncMatch>, funcs': seq<FuncMatch>)
    requires WellFormedMatches(text, pnt, hsl, hwb, funcs) && WellFormedMatches(text, pnt, hsl, hwb', funcs')
    ensures var rel := pnt - SearchRegion(|text|, pnt).a;
            !NoneCovers(hsl, rel) ==> ColorFuncAt(text, pnt, hsl, hwb, funcs) == ColorFuncAt(text, pnt, hsl, hwb', funcs')
    ensures var rel := pnt - SearchRegion(|text|, pnt).a;
            !NoneCovers(hwb, rel) ==> ColorFuncAt(text, pnt, hsl, hwb, funcs) == ColorFuncAt(text, pnt, hsl, hwb, funcs')
  {
    var w := SearchRegion(|text|, pnt);
    var rel, len := pnt - w.a, WindowLength(|text|, pnt);
    var picked := Pick(hsl, hwb, funcs, rel, len);
    if !NoneCovers(hsl, rel) {
      assert Pick(hsl, hwb', funcs', rel, len) == picked;
      PickedBuilds(text, pnt, hsl, hwb, funcs, picked.value.0, picked.value.1);
      PickedBuilds(text, pnt, hsl, hwb', funcs', picked.value.0, picked.value.1);
    }
    if !NoneCovers(hwb, rel) {
      assert Pick(hsl, hwb, funcs', rel, len) == picked;
      PickedBuilds(text, pnt, hsl, hwb, funcs, picked.value.0, picked.value.1);
      PickedBuilds(text, pnt, hsl, hwb, funcs', picked.value.0, picked.value.1);
    }
  }

  /** Nothing is found exactly when no match of any pattern covers the cursor. */
  lemma {:induction false} NothingFound(text: string, pnt: nat, hsl: seq<FuncMatch>, hwb: seq<FuncMatch>, funcs: seq<FuncMatch>)
    requires WellFormedMatches(text, pnt, hsl, hwb, funcs)
    ensures var rel := pnt - SearchRegion(|text|, pnt).a;
            ColorFuncAt(text, pnt, hsl, hwb, funcs) == Ok(None) <==>
              NoneCovers(hsl, rel) && NoneCovers(hwb, rel) && NoneCovers(funcs, rel)
  {
    var w := SearchRegion(|text|, pnt);
    NothingPicked(text, pnt, hsl, hwb, funcs);
    PickNone(hsl, hwb, funcs, pnt - w.a, WindowLength(|text|, pnt));
  }

  /** The result is empty exactly when no match is picked: a picked match always
      yields a colour or an error. */
  lemma {:induction false} NothingPicked(text: string, pnt: nat, hsl: seq<FuncMatch>, hwb: seq<FuncMatch>, funcs: seq<FuncMatch>)
    requires WellFormedMatches(text, pnt, hsl, hwb, funcs)
    ensures var w := SearchRegion(|text|, pnt);
            ColorFuncAt(text, pnt, hsl, hwb, funcs) == Ok(None) <==> Pick(hsl, hwb, funcs, pnt - w.a, WindowLength(|text|, pnt)).None?
  {
  }

  /** No pattern's match is picked exactly when none covers the point. */
  lemma {:induction false} PickNone(hsl: seq<FuncMatch>, hwb: seq<FuncMatch>, funcs: seq<FuncMatch>, rel: int, len: nat)
    requires SpansWithin(hsl, len) && SpansWithin(hwb, len) && SpansWithin(funcs, len)
    ensures Pick(hsl, hwb, funcs, rel, len).None? <==>
              NoneCovers(hsl, rel) && NoneCovers(hwb, rel) && NoneCovers(funcs, rel)
  {
  }

  /** Within one pattern the earliest covering match in enumeration order is
      taken: a generic match found is the first that covers the cursor, and no
      HSL or HWB match covers it. */
  lemma {:induction false} FirstMatchWins(text: string, pnt: nat, hsl: seq<FuncMatch>, hwb: seq<FuncMatch>, funcs: seq<FuncMatch>)
    requires WellFormedMatches(text, pnt, hsl, hwb, funcs)
    requires ColorFuncAt(text, pnt, hsl, hwb, funcs).Ok?
    requires ColorFuncAt(text, pnt, hsl, hwb, funcs).value.Some?
    requires ColorFuncAt(text, pnt, hsl, hwb, funcs).value.value.source.CssText?
    ensures var w := SearchRegion(|text|, pnt);
            NoneCovers(hsl, pnt - w.a) && NoneCovers(hwb, pnt - w.a)
            && exists k :: 0 <= k < |funcs| && ColorFuncAt(text, pnt, hsl, hwb, funcs).value.value.region == Shift(w, funcs[k])
                 && Covers(funcs[k], pnt - w.a) && NoneCovers(funcs[..k], pnt - w.a)
  {
    var w := SearchRegion(|text|, pnt);
    var rel := pnt - w.a;
    NothingPicked(text, pnt, hsl, hwb, funcs);
    var picked := Pick(hsl, hwb, funcs, rel, WindowLength(|text|, pnt));
    PickedBuilds(text, pnt, hsl, hwb, funcs, picked.value.0, picked.value.1);
    assert picked.value.0 == FuncPattern;
    var k := FirstCovering(funcs, rel).value;
    assert picked.value.1 == funcs[k];
    assert NoneCovers(funcs[..k], rel);
  }

  /** Within the HSL pattern too the earliest covering match in enumeration
      order is taken: the result is `parse_hues` of the first HSL match
      covering the cursor, at its shifted span. */
  lemma {:induction false} FirstHslMatchWins(text: string, pnt: nat, hsl: seq<FuncMatch>, hwb: seq<FuncMatch>, funcs: seq<FuncMatch>)
    requires WellFormedMatches(text, pnt, hsl, hwb, funcs)
    ensures var w := SearchRegion(|text|, pnt);
            var k := FirstCovering(hsl, pnt - w.a);
            k.Some? ==>
              k.value < |hsl| && Covers(hsl[k.value], pnt - w.a) && NoneCovers(hsl[..k.value], pnt - w.a)
              && ColorFuncAt(text, pnt, hsl, hwb, funcs) == HueResult(Shift(w, hsl[k.value]), hsl[k.value], "hsl")
  {
    var w := SearchRegion(|text|, pnt);
    var k := FirstCovering(hsl, pnt - w.a);
    if k.Some? {
      assert Pick(hsl, hwb, funcs, pnt - w.a, WindowLength(|text|, pnt)) == Some((HslPattern, hsl[k.value]));
      PickedBuilds(text, pnt, hsl, hwb, funcs, HslPattern, hsl[k.value]);
      assert NoneCovers(hsl[..k.value], pnt - w.a);
    }
  }

  /** And for the generic pattern: when no HSL or HWB match covers the
      cursor, the result is the lower-cased text of the first generic match
      covering it, at its shifted span. */
  lemma {:induction false} FirstFuncMatchBuilds(text: string, pnt: nat, hsl: seq<FuncMatch>, hwb: seq<FuncMatch>, funcs: seq<FuncMatch>)
    requires WellFormedMatches(text, pnt, hsl, hwb, funcs)
    ensures var w := SearchRegion(|text|, pnt);
            var k := FirstCovering(funcs, pnt - w.a);
            NoneCovers(hsl, pnt - w.a) && NoneCovers(hwb, pnt - w.a) && k.Some? ==>
              var region := Shift(w, funcs[k.value]);
              region.Within(|text|)
              && ColorFuncAt(text, pnt, hsl, hwb, funcs) == Ok(Some(Located(region, CssText(ExtractWord(text, region)))))
  {
    var w := SearchRegion(|text|, pnt);
    var k := FirstCovering(funcs, pnt - w.a);
    if NoneCovers(hsl, pnt - w.a) && NoneCovers(hwb, pnt - w.a) && k.Some? {
      assert FirstCovering(hsl, pnt - w.a).None? && FirstCovering(hwb, pnt - w.a).None?;
      assert Pick(hsl, hwb, funcs, pnt - w.a, WindowLength(|text|, pnt)) == Some((FuncPattern, funcs[k.value]));
      PickedBuilds(text, pnt, hsl, hwb, funcs, FuncPattern, funcs[k.value]);
    }
  }

  /** Likewise for HWB: when no HSL match covers the cursor, the result is
      `parse_hues` of the first HWB match covering it. */
  lemma {:induction false} FirstHwbMatchWins(text: string, pnt: nat, hsl: seq<FuncMatch>, hwb: seq<FuncMatch>, funcs: seq<FuncMatch>)
    requires WellFormedMatches(text, pnt, hsl, hwb, funcs)
    ensures var w := SearchRegion(|text|, pnt);
            var k := FirstCovering(hwb, pnt - w.a);
            NoneCovers(hsl, pnt - w.a) && k.Some? ==>
              k.value < |hwb| && Covers(hwb[k.value], pnt - w.a) && NoneCovers(hwb[..k.value], pnt - w.a)
              && ColorFuncAt(text, pnt, hsl, hwb, funcs) == HueResult(Shift(w, hwb[k.value]), hwb[k.value], "hwb")
  {
    var w := SearchRegion(|text|, pnt);
    var k := FirstCovering(hwb, pnt - w.a);
    if NoneCovers(hsl, pnt - w.a) && k.Some? {
      assert FirstCovering(hsl, pnt - w.a).None?;
      assert Pick(hsl, hwb, funcs, pnt - w.a, WindowLength(|text|, pnt)) == Some((HwbPattern, hwb[k.value]));
      PickedBuilds(text, pnt, hsl, hwb, funcs, HwbPattern, hwb[k.value]);
      assert NoneCovers(hwb[..k.value], pnt - w.a);
    }
  }
}

=== FILE: options.dfy ===
/** `convert(color, format)`: which colour `to_string` is called on and with
    which keyword arguments, as decided by the target format and the plugin's
    settings. The colour library itself is not modelled; a call is described
    by its target space and its arguments. */
module Options {
  import opened Outcomes

  /** A settings value as `settings.get` returns it; `Null` is Python's `None`. */
  datatype Value = Null | Bool(b: bool) | Int(i: int) | Str(s: string)

  /** Python truthiness of a settings value. */
  predicate Truthy(v: Value) {
    match v
    case Null => false
    case Bool(b) => b
    case Int(i) => i != 0
    case Str(s) => s != ""
  }

  /** The settings `convert` and `pnt_to_clipboard` read: `commas`, `%`,
      `%_rgb`, `round`, `hex_case`, `hex_short` and `hex_copy_#`. */
  datatype Setting = Commas | Percent | PercentRgb | Round | HexCase | HexShort | HexCopyHash

  type Settings = map<Setting, Value>

  /** `settings.get(key)`: `None` for a setting that is not stored. */
  function Get(settings: Settings, key: Setting): (v: Value)
    ensures key !in settings ==> v == Null
    ensures key in settings ==> v == settings[key]
  {
    if key in settings then settings[key] else Null
  }

  /** The keyword arguments `convert` passes to `to_string`. */
  datatype Keyword = Names | Hex | Upper | Compress | ColorFlag | Comma | PercentArg | Precision

  /** An argument: a settings value passed on as it is, a literal boolean, or
      a precision list. */
  datatype Arg = Raw(v: Value) | Flag(b: bool) | Places(p: seq<int>)

  /** The spaces `convert` converts to before formatting. */
  datatype Space = Srgb | Hsl | Hwb | Lab

  /** `to_string(**args)` on the colour as found (`space == None`, only for
      `color`) or on the colour converted to `space`. */
  datatype ToStringCall = ToStringCall(space: Option<Space>, args: map<Keyword, Arg>)

  /** The target formats `convert` knows. */
  datatype Format = NameFormat | HexFormat | Hex6Format | ColorFormat | RgbFormat | HslFormat | HwbFormat | LabFormat

  /** The command argument that names a format. */
  function FormatName(f: Format): string {
    match f
    case NameFormat => "name"
    case HexFormat => "hex"
    case Hex6Format => "HEX6"
    case ColorFormat => "color"
    case RgbFormat => "rgb"
    case HslFormat => "hsl"
    case HwbFormat => "hwb"
    case LabFormat => "lab"
  }

  /** The format a command argument names, if any; the comparison is case
      sensitive, so `hex` and `HEX6` are different formats. */
  function FormatOf(format: string): (r: Option<Format>)
    ensures r.Some? ==> FormatName(r.value) == format
  {
    if format == "name" then Some(NameFormat)
    else if format == "hex" then Some(HexFormat)
    else if format == "HEX6" then Some(Hex6Format)
    else if format == "color" then Some(ColorFormat)
    else if format == "rgb" then Some(RgbFormat)
    else if format == "hsl" then Some(HslFormat)
    else if format == "hwb" then Some(HwbFormat)
    else if format == "lab" then Some(LabFormat)
    else None
  }

  /** Every format is recognised by its own name. */
  lemma {:induction false} FormatNameRoundTrip(f: Format)
    ensures FormatOf(FormatName(f)) == Some(f)
  {
    match f
    case NameFormat =>
    case HexFormat =>
      assert "hex" != "name";
    case Hex6Format =>
      assert "HEX6" != "name" && "HEX6" != "hex";
    case ColorFormat =>
      assert "color"[0] != "name"[0] && "color"[0] != "hex"[0] && "color"[0] != "HEX6"[0];
    case RgbFormat =>
      assert "rgb"[0] !in {'n', 'h', 'H', 'c'};
    case HslFormat =>
      assert "hsl"[1] != "hex"[1];
      assert "hsl"[0] !in {'n', 'H', 'c', 'r'};
    case HwbFormat =>
      assert "hwb"[1] != "hex"[1] && "hwb"[1] != "hsl"[1];
      assert "hwb"[0] !in {'n', 'H', 'c', 'r'};
    case LabFormat =>
      assert "lab"[0] !in {'n', 'h', 'H', 'c', 'r'};
  }

  /** The precision list `round` asks for: whole channels, three places of alpha. */
  const RoundedPrecision: seq<int> := [0, 0, 0, 3]

  /** `common_args`: `comma` and `percent` from the settings, and `precision`
      only when `round` is set. */
  function CommonArgs(settings: Settings): (r: map<Keyword, Arg>)
    ensures Comma in r && PercentArg in r
    ensures r[Comma] == Raw(Get(settings, Commas)) && r[PercentArg] == Raw(Get(settings, Percent))
    ensures Precision in r <==> Truthy(Get(settings, Round))
    ensures Precision in r ==> r[Precision] == Places(RoundedPrecision)
    ensures forall k :: k in r ==> k == Comma || k == PercentArg || k == Precision
  {
    var common := map[Comma := Raw(Get(settings, Commas)), PercentArg := Raw(Get(settings, Percent))];
    if Truthy(Get(settings, Round)) then common[Precision := Places(RoundedPrecision)] else common
  }

  /** The name of a keyword argument, as Python spells it. */
  function KeywordName(k: Keyword): string {
    match k
    case Names => "names"
    case Hex => "hex"
    case Upper => "upper"
    case Compress => "compress"
    case ColorFlag => "color"
    case Comma => "comma"
    case PercentArg => "percent"
    case Precision => "precision"
  }

  /** `del args[key]`: Python raises `KeyError(key)` when the key is missing. */
  function Delete(args: map<Keyword, Arg>, key: Keyword): (r: Result<map<Keyword, Arg>>)
    ensures r.Err? <==> key !in args
    ensures r.Err? ==> r.error == KeyError(KeywordName(key))
    ensures r.Ok? ==> r.value.Keys == args.Keys - {key} && forall k :: k in r.value ==> r.value[k] == args[k]
  {
    if key in args then Ok(args - {key}) else Err(KeyError(KeywordName(key)))
  }

  /** The `color` branch as written: without `%` it deletes `precision`, which
      raises when `round` is not set either; in every other case it makes the
      call the corrected branch makes. */
  function ColorCallAsWritten(settings: Settings): (r: Result<ToStringCall>)
    ensures r.Err? <==> !Truthy(Get(settings, Percent)) && !Truthy(Get(settings, Round))
    ensures r.Err? ==> r.error == KeyError("precision")
    ensures r.Ok? ==> r.value == ColorCall(settings)
  {
    var common := CommonArgs(settings);
    if !Truthy(Get(settings, Percent)) then
      var args :- Delete(common, Precision);
      Ok(ToStringCall(None, args[ColorFlag := Flag(true)]))
    else
      Ok(ToStringCall(None, common[ColorFlag := Flag(true)]))
  }

  /** The `color` branch as intended: without `%` the precision is dropped if
      it was there. */
  function ColorCall(settings: Settings): ToStringCall {
    var common := CommonArgs(settings);
    var args := if !Truthy(Get(settings, Percent)) then common - {Precision} else common;
    ToStringCall(None, args[ColorFlag := Flag(true)])
  }

  /** `convert(color, format)` for a known format, with the `color` branch
      corrected. */
  function Convert(f: Format, settings: Settings): (r: ToStringCall)
    ensures r.space.None? <==> f == ColorFormat
    ensures f in {NameFormat, HexFormat, Hex6Format, RgbFormat} ==> r.space == Some(Srgb)
    ensures f == HslFormat ==> r.space == Some(Hsl)
    ensures f == HwbFormat ==> r.space == Some(Hwb)
    ensures f == LabFormat ==> r.space == Some(Lab)
    ensures Precision in r.args <==>
              Truthy(Get(settings, Round)) && f !in {NameFormat, HexFormat, Hex6Format}
              && (f == ColorFormat ==> Truthy(Get(settings, Percent)))
    ensures Precision in r.args ==> r.args[Precision] == Places(RoundedPrecision)
    ensures Hex in r.args <==> f in {HexFormat, Hex6Format}
    ensures f in {HexFormat, Hex6Format} ==> r.args.Keys == {Hex, Upper, Compress} && r.args[Hex] == Flag(true)
    ensures f == NameFormat ==> r.args == map[Names := Flag(true)]
    ensures f == ColorFormat ==> ColorFlag in r.args && r.args[ColorFlag] == Flag(true)
    ensures f in {RgbFormat, HslFormat, HwbFormat, LabFormat, ColorFormat} ==>
              r.args.Keys <= {Comma, PercentArg, Precision, ColorFlag}
              && (ColorFlag in r.args <==> f == ColorFormat)
  {
    var common := CommonArgs(settings);
    match f
    case NameFormat => ToStringCall(Some(Srgb), map[Names := Flag(true)])
    case HexFormat =>
      ToStringCall(Some(Srgb), map[Hex := Flag(true),
                                   Upper := Flag(Get(settings, HexCase) == Str("upper")),
                                   Compress := Raw(Get(settings, HexShort))])
    case Hex6Format =>
      ToStringCall(Some(Srgb), map[Hex := Flag(true), Upper := Flag(true), Compress := Flag(false)])
    case ColorFormat => ColorCall(settings)
    case RgbFormat => ToStringCall(Some(Srgb), common[PercentArg := Raw(Get(settings, PercentRgb))])
    case HslFormat => ToStringCall(Some(Hsl), common)
    case HwbFormat => ToStringCall(Some(Hwb), common)
    case LabFormat => ToStringCall(Some(Lab), common)
  }

  /** `convert` as written: it raises `KeyError('precision')` exactly for
      `color` with neither `%` nor `round` set, and otherwise makes the call
      the corrected mapping makes. */
  function ConvertAsWritten(f: Format, settings: Settings): (r: Result<ToStringCall>)
    ensures r.Err? <==> f == ColorFormat && !Truthy(Get(settings, Percent)) && !Truthy(Get(settings, Round))
    ensures r.Err? ==> r.error == KeyError("precision")
    ensures r.Ok? ==> r.value == Convert(f, settings)
  {
    if f == ColorFormat then ColorCallAsWritten(settings) else Ok(Convert(f, settings))
  }

  /** `convert(color, format)` on the command argument: an unknown format
      falls off the end of the function, which returns `None`. */
  function ConvertNamed(format: string, settings: Settings): (r: Option<ToStringCall>)
    ensures r.Some? <==> format in {"name", "hex", "HEX6", "color", "rgb", "hsl", "hwb", "lab"}
  {
    match FormatOf(format)
    case Some(f) => Some(Convert(f, settings))
    case None => None
  }

  /** With the settings left empty, converting to `color` raises. */
  lemma DefaultColorRaises()
    ensures ConvertAsWritten(ColorFormat, map[]) == Err(KeyError("precision"))
  {
    assert !Truthy(Get(map[], Round));
  }

  /** `HEX6` is the portable hex form: it ignores every setting. */
  lemma {:induction false} Hex6IgnoresSettings(s1: Settings, s2: Settings)
    ensures Convert(Hex6Format, s1) == Convert(Hex6Format, s2)
    ensures Convert(Hex6Format, s1).args[Upper] == Flag(true)
    ensures Convert(Hex6Format, s1).args[Compress] == Flag(false)
  {
  }

  /** `hex` is upper case exactly when `hex_case` is the string "upper", and
      compresses as `hex_short` says. */
  lemma {:induction false} HexFollowsSettings(settings: Settings)
    ensures var args := Convert(HexFormat, settings).args;
            Upper in args && Compress in args
            && (args[Upper] == Flag(true) <==> Get(settings, HexCase) == Str("upper"))
            && args[Compress] == Raw(Get(settings, HexShort))
  {
  }

  /** `rgb` takes its percent flag from `%_rgb`; the other channel formats
      from `%`. Every channel format passes `commas` on. */
  lemma {:induction false} PercentSource(f: Format, settings: Settings)
    requires f in {ColorFormat, RgbFormat, HslFormat, HwbFormat, LabFormat}
    ensures var args := Convert(f, settings).args;
            PercentArg in args && Comma in args && args[Comma] == Raw(Get(settings, Commas))
            && args[PercentArg] == Raw(Get(settings, if f == RgbFormat then PercentRgb else Percent))
  {
  }
}

=== FILE: outcomes.dfy ===
/** Option and Result types for the plugin's error paths. */
module Outcomes {

  datatype Option<+T> = None | Some(value: T)

  /** The Python exceptions raised by the plugin's own code that the model keeps. */
  datatype Error =
    | InvalidOperation(literal: string)  // decimal.InvalidOperation: Decimal() rejected a captured number
    | KeyError(key: string)              // `del d[key]` on a dictionary without that key

  datatype Result<+T> = Ok(value: T) | Err(error: Error) {
    predicate IsFailure() { Err? }
    function PropagateFailure<U>(): Result<U> requires Err? { Err(error) }
    function Extract(): T requires Ok? { value }
  }
}

=== FILE: regions.dfy ===
/** Editor regions and the bounded search window around the cursor. */
module Regions {

  /** A region of the buffer between two offsets, as the editor represents it. */
  datatype Region = Region(a: int, b: int) {
    /** An ordinary (not reversed) region inside a buffer of `size` characters. */
    predicate Within(size: nat) { 0 <= a <= b <= size }
    /** Both ends count as inside. */
    predicate ContainsPoint(p: int) { a <= p <= b }
    predicate Inside(outer: Region) { outer.a <= a && b <= outer.b }
  }

  /** How far the search window reaches on each side of the cursor. */
  const SearchRadius: nat := 50

  /** The window searched for colour functions: the cursor widened by `SearchRadius`
      on both sides and clamped to the buffer. */
  function SearchRegion(size: nat, pnt: nat): (r: Region)
    ensures 0 <= r.a <= pnt && r.b <= size
    ensures pnt - SearchRadius <= r.a && (r.a == 0 || r.a == pnt - SearchRadius)
    ensures r.b <= pnt + SearchRadius && (r.b == size || r.b == pnt + SearchRadius)
    ensures pnt <= size ==> r.Within(size) && r.ContainsPoint(pnt) && r.b - r.a <= 2 * SearchRadius
  {
    var start := if pnt - SearchRadius > 0 then pnt - SearchRadius else 0;
    var end := if pnt + SearchRadius < size then pnt + SearchRadius else size;
    Region(start, end)
  }
}

=== FILE: text.dfy ===
/** The string operations the plugin applies to words: lower-casing, stripping
    white space, and the hexadecimal colour test. */
module Text {

  function LowerChar(c: char): char {
    if 'A' <= c <= 'Z' then (c as int + 32) as char else c
  }

  /** `str.lower()` on ASCII letters; other characters are kept. */
  function Lower(s: string): (r: string)
    ensures |r| == |s|
  {
    if s == [] then [] else [LowerChar(s[0])] + Lower(s[1..])
  }

  lemma {:induction false} LowerAt(s: string, i: nat)
    requires i < |s|
    ensures Lower(s)[i] == LowerChar(s[i])
    ensures !('A' <= Lower(s)[i] <= 'Z')
  {
    if i > 0 {
      LowerAt(s[1..], i - 1);
    }
  }

  lemma {:induction false} LowerConcat(s: string, t: string)
    ensures Lower(s + t) == Lower(s) + Lower(t)
  {
    if s != [] {
      assert (s + t)[1..] == s[1..] + t;
      LowerConcat(s[1..], t);
    } else {
      assert s + t == t;
    }
  }

  /** The ASCII characters `str.strip()` removes. */
  predicate IsSpace(c: char) {
    ('\t' <= c <= '\r') || ((28 as char) <= c <= ' ')
  }

  function StripLeft(s: string): (r: string)
    ensures |r| <= |s| && r == s[|s| - |r|..]
    ensures r == [] || !IsSpace(r[0])
    ensures forall i :: 0 <= i < |s| - |r| ==> IsSpace(s[i])
  {
    if s != [] && IsSpace(s[0]) then StripLeft(s[1..]) else s
  }

  function StripRight(s: string): (r: string)
    ensures |r| <= |s| && r == s[..|r|]
    ensures r == [] || !IsSpace(r[|r| - 1])
    ensures forall i :: |r| <= i < |s| ==> IsSpace(s[i])
  {
    if s != [] && IsSpace(s[|s| - 1]) then StripRight(s[..|s| - 1]) else s
  }

  predicate AllSpace(s: string) {
    forall i :: 0 <= i < |s| ==> IsSpace(s[i])
  }

  /** `str.strip()`: white space removed at both ends. */
  function Strip(s: string): (r: string)
    ensures |r| <= |s|
    ensures r == [] || (!IsSpace(r[0]) && !IsSpace(r[|r| - 1]))
  {
    StripRight(StripLeft(s))
  }

  lemma {:induction false} StripLeftOfPadded(ws: string, t: string)
    requires AllSpace(ws) && (t == [] || !IsSpace(t[0]))
    ensures StripLeft(ws + t) == t
    decreases |ws|
  {
    if ws == [] {
      assert ws + t == t;
    } else {
      assert IsSpace((ws + t)[0]);
      assert (ws + t)[1..] == ws[1..] + t;
      StripLeftOfPadded(ws[1..], t);
    }
  }

  lemma {:induction false} StripRightOfPadded(t: string, ws: string)
    requires AllSpace(ws) && (t == [] || !IsSpace(t[|t| - 1]))
    ensures StripRight(t + ws) == t
    decreases |ws|
  {
    if ws == [] {
      assert t + ws == t;
    } else {
      assert IsSpace((t + ws)[|t + ws| - 1]);
      assert (t + ws)[..|t + ws| - 1] == t + ws[..|ws| - 1];
      StripRightOfPadded(t, ws[..|ws| - 1]);
    }
  }

  /** Strip removes exactly the padding: a text without white space at its ends,
      padded with white space on both sides, strips back to itself. */
  lemma {:induction false} StripPadded(left: string, t: string, right: string)
    requires AllSpace(left) && AllSpace(right)
    requires t == [] || (!IsSpace(t[0]) && !IsSpace(t[|t| - 1]))
    ensures Strip(left + t + right) == t
  {
    if t == [] {
      assert left + t + right == left + right + [];
      assert AllSpace(left + right);
      StripLeftOfPadded(left + right, []);
    } else {
      assert left + t + right == left + (t + right);
      StripLeftOfPadded(left, t + right);
      StripRightOfPadded(t, right);
    }
  }

  /** A character of the class `[a-f0-9]` matched with IGNORECASE. */
  predicate IsHexDigit(c: char) {
    '0' <= c <= '9' || 'a' <= c <= 'f' || 'A' <= c <= 'F'
  }

  /** `re.match` of `([a-f0-9]{6}|[a-f0-9]{3})`, case-insensitive: the match is
      anchored at the start of the word only, so either alternative may be
      followed by anything, and the test is only a prefix test: it passes
      exactly when the first three characters are hexadecimal digits. */
  predicate HexColorMatch(s: string): (r: bool)
    ensures r <==> |s| >= 3 && IsHexDigit(s[0]) && IsHexDigit(s[1]) && IsHexDigit(s[2])
  {
    (|s| >= 6 && IsHexDigit(s[0]) && IsHexDigit(s[1]) && IsHexDigit(s[2])
              && IsHexDigit(s[3]) && IsHexDigit(s[4]) && IsHexDigit(s[5]))
    || (|s| >= 3 && IsHexDigit(s[0]) && IsHexDigit(s[1]) && IsHexDigit(s[2]))
  }

  /** Lower-casing the word first does not change the verdict of the hex test. */
  lemma {:induction false} HexColorMatchIgnoresCase(s: string)
    ensures HexColorMatch(Lower(s)) == HexColorMatch(s)
  {
    if |s| >= 3 {
      LowerAt(s, 0);
      LowerAt(s, 1);
      LowerAt(s, 2);
    }
  }
}
